=== FILE: README.md ===
# Webhook receiver: a Dafny model

This project models the core of a small Flask webhook receiver. It covers:

- the two endpoints, `POST /webhook` and `POST /webhook/<source>`. Each one
  checks an optional HMAC-SHA256 signature, parses the JSON body, saves one
  JSON file per webhook and answers with a status code;
- the helpers those endpoints use: signature verification, the client
  address and the file store (save and list, newest first);
- the rule-based classifier `analyze_with_rules` and its wrapper
  `analyze_webhook_with_ai`;
- `forward_to_remote`, which relays a webhook and its analysis to a
  downstream collector.

Python values are modelled as a `Json` datatype (`None`, `bool`, `int`,
`str`, `list`, `dict`). A dict is an ordered list of fields, because the
insertion order shows up in `str()` of a dict. Python behaviour that decides
a result is written out: `.get(key, default)` uses the default only for an
absent key and raises on a non-dict, `str()`/`repr()`, ASCII `lower()`,
substring `in`, `strip()`, `split(',')[0]`, the stable `sort(reverse=True)`
with string order, and `[:limit]` slicing, negative limits included.

Modules: `Results` (Option/Result), `JsonValues`, `Text`, `Http`,
`Settings` (configuration constants), `Signature`, `ClientAddress`,
`Analyzer`, `Forwarder`, `Ordering`, `Store` and `App`.

## Behaviour worth noting

- The endpoints in app.py never classify, forward or use a database. They
  verify, parse, save with no `ai_analysis`, and answer. The classifier and
  the forwarder are separate operations in the code, and so in the model.
- `analyze_webhook_with_ai` reads `parsed_data` with `.get('parsed_data', {})`.
  A present `parsed_data` that is `null` or a list is not replaced by `{}`.
  Calling `.get` on it raises, and the result is the error record
  (`Analyzer.NullPayloadFails`).
- A payload without `event` is summarised as `"一般事件: "`. The summary
  fallback `收到来自 {source} 的 webhook 事件` can never run, because every
  branch sets a non-empty summary (`AnalyzeWithRules` ensures
  `summary != ""`).
- The keyword test runs on `str(event)`. For a non-string `event` that is the
  Python repr, so a keyword inside a nested value counts:
  `{"event": {"x": "ERROR"}}` is critical (`Analyzer.NestedErrorIsCritical`).
- `hmac.compare_digest` raises `TypeError` when the signature header has a
  non-ASCII character. The endpoint turns that into 500 "Internal server
  error", not 401 (`Signature.Verify`, `App.Receive`).
- Every refusal carries a fixed message: 401 `Invalid signature`, 400
  `Invalid JSON payload`, and 500 `Internal server error`, with no
  exception detail (`App.Receive`).
- Header names are looked up and stored through their WSGI environ key.
  Lookups ignore ASCII case and treat `-` and `_` alike. The stored record
  shows each name title-cased, so `x-webhook-source` is saved as
  `X-Webhook-Source` (`Http.HeadersJson`, `Http.DisplayName`).
- The file listing raises when a record's `timestamp` cannot be compared
  with a string. `get_all_webhooks` does not catch this.
- A header sent twice is read as its values joined by `,`, in request order,
  because the WSGI server stores it that way. A request carrying
  `X-Webhook-Signature` twice is therefore never accepted, even when one of
  the two is right: a comma is not a hex digit
  (`App.RepeatedSignatureRefused`). The stored headers hold one field per
  distinct header, with the joined value (`Http.HeaderStored`).
- On `/webhook` the `X-Webhook-Source` header picks where the file is
  written: the source goes into the file name unchecked, so `../x` writes
  `webhooks_data/../x_<stamp>.json` and `/tmp/x` writes
  `/tmp/x_<stamp>.json` (`Store.SourceChoosesLocation`). Such a file is not
  in the listed directory and is never listed. The path segment of
  `/webhook/<source>` cannot hold `/` (`App.TaggedSourceInDataDir`).
- The sort is stable. Records without a `timestamp` all sort under `''` and
  keep their directory order, and that order decides which of them
  `[:limit]` keeps (`Ordering.SortDescStable`).

## Model

| member | source | states |
|---|---|---|
| JsonValues.GetOrDefault | ai_analyzer.py:19-20 | `.get(key, default)` succeeds exactly on a dict, gives the stored value for a present key (even `null`), gives the default only for an absent key, and otherwise fails with Python's `AttributeError` text for that type |
| JsonValues.Repr | ai_analyzer.py:75 | `repr()` of a value: `None`, `True`/`False` and decimal numbers as Python prints them; a string between matching quotes; a list between brackets and a dict between braces |
| JsonValues.ReprShowsValue | ai_analyzer.py:75 | the repr of a dict contains the repr of each of its values as one contiguous piece |
| JsonValues.PlainValueShown | ai_analyzer.py:75 | `str()` of a dict holds each plain string value of it, unescaped |
| JsonValues.PlainQuoteRepr | ai_analyzer.py:75 | a printable ASCII string without quotes or backslashes is shown as itself between single quotes |
| JsonValues.Set | utils.py:121 | `d['filename'] = name`: afterwards the key reads back the new value, every other key reads back as before, and the dict grows only when the key was new |
| Text.LowerOfLower | ai_analyzer.py:75 | lower-casing twice is lower-casing once |
| Text.MissingChar | ai_analyzer.py:77 | a keyword holding a character the event text lacks is not a substring of it (the `keyword in event` test) |
| Text.Strip | utils.py:92 | `strip()` keeps one contiguous piece of the text, drops only whitespace before and after it, and what it keeps neither starts nor ends with whitespace |
| Text.StripIdempotent | utils.py:92 | stripping an already stripped value changes nothing |
| Text.FirstField | utils.py:92 | `split(',')[0]` is a comma-free prefix that is the whole text or stops right at the first comma |
| Text.Hex | utils.py:26-30 | `hexdigest()` gives two lower-case hex digits per byte |
| Text.UnHexHex | utils.py:26-30 | decoding the hex text gives back the digest bytes |
| Text.HexInjective | utils.py:26-33 | two digests have equal hex texts exactly when they are equal, so comparing hex texts compares digests |
| Http.HeaderValue | app.py:33-34 | a header lookup answers exactly when some header's name has the same environ key (ASCII case ignored, `-` and `_` alike) |
| Http.SoleHeaderValue | app.py:33-34 | a header sent once is read as sent |
| Http.RepeatedHeaderValue | app.py:33-34 | a header sent more than once is read as the first value, a comma, and what the headers after it read, never as the first value alone |
| Http.RepeatedHeaderHasComma | app.py:33 | a header sent twice is read with a comma in it |
| Http.SourceHeaderSpellings | app.py:34 | `X_Webhook_Source` and `x-webhook-source` name the same header |
| Http.DisplayName | utils.py:65 | a stored header name is the environ key with `_` shown as `-`, each letter upper case exactly when it does not follow a letter |
| Http.DisplayNameIffSameName | utils.py:65 | two names are stored alike exactly when they name the same header |
| Http.HeadersJson | utils.py:65 | `dict(headers)` is empty exactly when the request has no headers, has at most one field per header, and holds text values only |
| Http.HeadersJsonKeysDistinct | utils.py:65 | `dict(headers)` has no two fields with the same name |
| Http.HeaderStored | utils.py:65 | every header of the request is stored under its shown name with the value a lookup of it reads, the joined value for a repeated header |
| Http.FieldStoresHeader | utils.py:65 | every stored field is the shown name and looked-up value of some header of the request |
| Http.HeadersJsonOfDistinct | utils.py:65 | when no header is sent twice, `dict(headers)` keeps every header, in request order, with its own value, under its title-cased name |
| Signature.ExpectedSignature | utils.py:26-30 | the expected signature is 64 lower-case hex digits |
| Signature.NonHexSignatureRejected | utils.py:26-33 | an ASCII signature holding any character other than a lower-case hex digit is rejected |
| Signature.Verify | utils.py:10-33 | a non-ASCII signature makes the comparison raise; otherwise the answer is true exactly when the signature equals the hex HMAC of the payload under the given secret, or under the configured secret when none is given |
| Signature.SignedPayloadVerifies | utils.py:22-33 | a payload signed with the secret verifies |
| Signature.DefaultSecret | utils.py:22-23 | omitting the secret is the same as passing the configured one |
| Signature.AlteredSignatureRejected | utils.py:33 | an ASCII signature that differs from the expected one in length or in any character is rejected, not raised on |
| Signature.DistinctDigestsDistinctSignatures | utils.py:26-33 | different MACs give different expected signatures, so a signature made for another payload or secret is rejected |
| ClientAddress.ClientIp | utils.py:81-96 | a non-empty `X-Forwarded-For` wins with its first hop; otherwise a non-empty `X-Real-IP` is returned as is; otherwise the peer address |
| ClientAddress.FirstHopIsClean | utils.py:91-92 | the first hop has no comma and no whitespace at either end |
| ClientAddress.FirstHopPosition | utils.py:91-92 | the first hop is the piece of the header value before the first comma, with only whitespace dropped around it |
| Analyzer.AnalysisJsonFields | ai_analyzer.py:65-104 | the analysis dict answers `source` and `importance` with the record's values and has `data_type` exactly when a tag was set |
| Analyzer.AnalyzeWithRules | ai_analyzer.py:53-110 | keeps the source and the `event` value (default `unknown`); `high` exactly when a critical keyword or, without a completion keyword, a business keyword appears; `low` exactly when a completion keyword appears and no critical one; `financial` exactly on `amount`/`price`, `user_related` on `user_id`/`email` only without them; the financial risk is added last exactly for financial payloads; summary never empty |
| Analyzer.CriticalBranch | ai_analyzer.py:77-82 | a critical keyword decides `high`, the urgent actions and the stability risk, whatever else the event mentions |
| Analyzer.CompletionBranch | ai_analyzer.py:84-87 | a completion keyword without a critical one gives `low` and only the logging action |
| Analyzer.BusinessBranch | ai_analyzer.py:89-93 | a business keyword alone gives `high` with the two data-integrity actions and no stability risk |
| Analyzer.GeneralBranch | ai_analyzer.py:95-97 | an event with no keyword stays `medium` with routine handling |
| Analyzer.PaymentFailedIsBusiness | ai_analyzer.py:75-93 | `payment_failed` is `high` through the business branch: `failed` is not the critical keyword `failure` |
| Analyzer.JobCompletedIsLow | ai_analyzer.py:75-87 | `job_completed` is `low` |
| Analyzer.NestedKeywordFound | ai_analyzer.py:75 | a keyword in a plain string value of a dict `event` is found in the event text |
| Analyzer.NestedErrorIsCritical | ai_analyzer.py:75-82 | `{"event": {"x": "ERROR"}}` is `high` |
| Analyzer.AiOutcome.ToJson | ai_analyzer.py:44-50 | the error record is exactly `{status: 'error', message, importance: 'unknown'}`; an analysis keeps its own importance |
| Analyzer.AnalyzeWebhook | ai_analyzer.py:7-50 | fails exactly when the record or a present `parsed_data` is not a dict, with the `AttributeError` text of that value; otherwise it is the rule analysis of `parsed_data` (default `{}`) with `source` (default `unknown`) |
| Analyzer.MissingPayloadIsGeneral | ai_analyzer.py:17-20 | a record without `parsed_data` is analysed as an empty payload: a general `medium` event tagged with its source |
| Analyzer.NullPayloadFails | ai_analyzer.py:17-50 | a record whose `parsed_data` is `null` yields the error record with the `NoneType` message |
| Forwarder.ForwardResult.ToJson | ai_analyzer.py:162-194 | the returned dict starts with `status` and carries the response and status code of a reply, or the fixed message of a timeout, a refused connection or disabled forwarding, or the exception text |
| Forwarder.Classify | ai_analyzer.py:162-194 | `success` exactly for a 200 whose body is empty or decodes, carrying code 200 and the decoded body or `{}` for an empty one; `failed` exactly for any other status, keeping code and text; `timeout` and `connection_error` exactly for those exceptions; any other exception, or a 200 body that does not decode, becomes `error` with the exception's text; never `disabled` |
| Forwarder.Forward | ai_analyzer.py:113-194 | `disabled` exactly when forwarding is off; `requests.post` is called exactly when it is on and both arguments are dicts; the request goes to the given URL or the configured one with a 10-second timeout; a non-dict argument becomes an error without a request |
| Forwarder.Envelope | ai_analyzer.py:138-145 | the posted body is a dict with exactly the keys `original_data`, `original_source`, `original_timestamp`, `ai_analysis`, `processed_by`, `client_ip`, in that order |
| Forwarder.EnvelopeLookups | ai_analyzer.py:138-145 | the posted body holds `parsed_data` (default `{}`), `source` (default `'unknown'`), `timestamp` and `client_ip` (default `None`), the analysis unchanged and `processed_by: webhook-analyzer` |
| Forwarder.Headers | ai_analyzer.py:148-152 | the request headers are exactly `Content-Type`, `X-Webhook-Source`, `X-Analysis-Importance`, in that order |
| Forwarder.HeaderLookups | ai_analyzer.py:148-152 | the headers announce `application/json`, `analyzed-<source>` (source default `unknown`) and the analysis importance (default `unknown`) |
| Forwarder.OutboundShape | ai_analyzer.py:136-160 | a forward with two dicts posts exactly the envelope and headers built from them, so the analysis travels unchanged under `ai_analysis`, with `processed_by: webhook-analyzer`, the source tagged `analyzed-` and the analysis importance, `unknown` when missing |
| Forwarder.ImportanceHeaderOfAnalysis | ai_analyzer.py:148-152 | forwarding a rule-based analysis announces that analysis's importance level in `X-Analysis-Importance` |
| Ordering.LessTransitive | utils.py:127 | Python's string order is transitive |
| Ordering.LessTotal | utils.py:127 | of two different strings one is less than the other |
| Ordering.SortDescCorrect | utils.py:127 | the descending sort is ordered newest first and is a permutation of its input |
| Ordering.SortDescStable | utils.py:127 | records with equal timestamps come out in the order they were read |
| Ordering.Take | utils.py:130 | `[:n]` is a prefix of length `min(n, len)` for `n >= 0` and drops the last `-n` elements for `n < 0` |
| Store.JoinPath | utils.py:58 | `os.path.join`: the name ends the path; an absolute name is the path; otherwise the directory starts it and one separator sits between them |
| Store.FileName | utils.py:56-58 | every file name ends in `.json`; it names an entry of the data directory exactly when neither the source nor the stamp holds `/` |
| Store.SourceChoosesLocation | utils.py:56-58 | with the default directory, source `../x` gives `webhooks_data/` followed by a name that climbs out of it, and `/tmp/x` gives a path that ignores the directory; neither names an entry of it |
| Store.Record | utils.py:60-72 | the record has keys `timestamp, source, client_ip, headers, raw_payload, parsed_data` in that order, plus `ai_analysis` exactly when the analysis is truthy; `raw_payload` is `null` exactly for an absent or empty body and is otherwise the body's UTF-8 text; a non-UTF-8 body fails |
| Store.Save | utils.py:36-78 | the directory exists afterwards; a failed save changes no file; a save succeeds exactly when the record builds and the file is writable, and returns `os.path.join` of the directory and `<source>_<stamp>.json`; for a name without `/` that file holds the record and no other file changes, and for a name with `/` no file of the directory changes |
| Store.SaveAddsOneFile | utils.py:74-78 | a save under a new name adds exactly one file to the directory, or none when the name holds `/` |
| Store.RecordHolds | utils.py:61-68 | the record reads back the stamp, source and parsed payload it was given |
| Store.RecordReadsBack | utils.py:116-122 | a listed record reads back its stamp, source and payload, plus its file name under `filename` |
| Store.ListWebhooks | utils.py:99-130 | no directory lists as `[]`; sorting fails exactly when two or more records load and one has a non-string timestamp; otherwise the result is ordered newest first, a prefix of the sorted loaded records, and exactly `min(limit, n)` long for `n` loaded records, or `n + limit` (at least 0) for a negative limit |
| Store.Newest | utils.py:127-130 | sorting then `[:limit]` gives a newest-first prefix of the sorted records of exactly the slice's length |
| Store.Load | utils.py:113-124 | at most one record per listed name, each naming a `.json` file under `filename` |
| Store.LoadedFromFiles | utils.py:113-124 | every loaded record comes from a readable `.json` file holding a dict and carries that file's name |
| Store.FilesLoaded | utils.py:113-124 | every readable `.json` file holding a dict is loaded |
| Store.ListingIsComplete | utils.py:116-130 | with a limit that admits every file, the listing is a rearrangement of the loaded records |
| Store.SavedRecordIsListed | utils.py:36-130 | saving under a name without `/` and then listing with a limit that admits every file returns the saved record tagged with its file name; saving under a name with `/` leaves the listing as it was |
| App.SourceOf | app.py:34 | the source is the path segment, else the `X-Webhook-Source` header, else `unknown` |
| App.TaggedSourceInDataDir | app.py:93-139 | on `/webhook/<source>` the file always lands in the data directory, as a path segment holds no `/` |
| App.ErrorBody | app.py:48-51 | a refusal body says `success: false` and names its reason under `error` |
| App.AcceptedReply | app.py:78-83 | the reply to an accepted webhook has `success: true` and the reply time; `/webhook` adds its fixed message and the saved path, `/webhook/<source>` (app.py:144-149) names the source instead |
| App.Receive | app.py:21-156 | the status is 200, 400, 401 or 500 and `success` is true exactly for 200; 401 exactly when a non-empty signature verifies false; a non-ASCII signature gives 500 with nothing written; after the signature check, 400 exactly for a body that does not parse, and then nothing is written; for a parsed body the directory is the save's result and 200 is given exactly when the save succeeds; a refusal's body is the fixed message for its status, with no exception detail; a 200 reports the saved path or the source |
| App.RefusedRequestWritesNothing | app.py:44-90 | a request not answered 200 adds or changes no file |
| App.AcceptedRequestSavesOneFile | app.py:64-83 | an accepted request whose file name has no `/` leaves that file, named after its source and file stamp, holding its payload and source, and no other file appears or disappears; one whose source holds `/` leaves every file of the directory as it was |
| App.SignedRequestAccepted | app.py:44-83 | a correctly signed, parseable UTF-8 request is accepted when the file can be written |
| App.ForgedRequestRefused | app.py:45-51 | an ASCII signature other than the expected one is refused with 401 and writes nothing |
| App.RepeatedSignatureRefused | app.py:33-51 | a request carrying the signature header twice is refused with 401, or 500 for a non-ASCII value, and writes nothing |
| App.AcceptedRequestIsListed | app.py:64-83 | an accepted webhook saved under a name without `/` appears in a listing that admits every file, with its payload and file name; one saved under a name with `/` leaves the listing as it was |

## Left out

- HMAC-SHA256 itself: the MAC is a parameter (`Signature.Mac`) returning a 32-byte digest. Hex encoding and the comparison are modelled.
- UTF-8 decoding of the body: `Http.Body` carries the bytes and their decoding, when they decode.
- JSON parsing of the request body and of stored files: the parse outcome is part of the request (`App.JsonParse`), and a stored file is `Store.Entry` (a decoded value, or unreadable). JSON floats are not representable, because `JNum` is an integer: neither a request payload such as `{"amount": 9.99}` nor a stored file holding one is modelled.
- The HTTP POST of `forward_to_remote`: its outcome is an input (`Forwarder.HttpOutcome`). The choice between `Timeout`, `ConnectionError` and other exceptions is made by that input.
- Clocks: the file-name stamp, the record stamp and the reply stamp are parameters (`App.Stamps`).
- Directory listing order: a parameter of `Store.ListWebhooks`.
- Logging, the `/health` endpoint, the 404 and 405 handlers, Flask routing and app start-up: they decide nothing the model states.
- models.py (the database layer) and the remote AI call: app.py and ai_analyzer.py never call them.
- Configuration loading from the environment: `Settings.Config` holds the values, and `Settings.Default` holds the defaults in config.py.
- The analysis prompt text built in `analyze_webhook_with_ai`: it is never used.
- Text.LowerOfLower: `lower()` is modelled for ASCII only. The keyword branch does not depend on this, because the non-ASCII characters whose lower case is ASCII (the Kelvin sign, dotted capital I) cannot complete a keyword. Summaries do: they keep non-ASCII capitals, so an event `ÉRROR` is summarised as `一般事件: Érror` where Python gives `一般事件: érror`.
- JsonValues.Repr: escapes only backslash, the quote, tab, newline, carriage return and other ASCII control characters. Non-printable non-ASCII characters are kept as they are. This can change the keyword branch: for `{"event": {"x": "\u009alert"}}` Python's `str()` shows `\x9alert`, which holds `alert`, so the event is `high`; the model keeps the single character U+009A and rates it `medium`.
- Store.ListWebhooks: a failure is stated whenever two or more records load and one timestamp is not a string. Python fails for sure only when a string is compared with a non-string. When no timestamp is a string (all numbers, say) the sort may succeed in Python.
- Store.Save: a file name with `/` is modelled as landing outside the directory's entries. A path that leads back into the directory, such as `./x` or `../webhooks_data/x`, does land there in Python; resolving `.`, `..` and links needs the file system, which is not modelled. Whether the target subdirectory exists is part of the `writable` input. A failed write may leave a partial file in Python; the model leaves the directory unchanged. A failure of `os.makedirs` is not modelled.
- Store.ListWebhooks: the failure message is a fixed stand-in. Python's `TypeError` text names the two types compared, and which two records the sort compares first is not modelled.
- Store.ListWebhooks: a JSON file holding a non-dict is skipped, as in Python. A file that decodes to an object with repeated keys is read with the first value, whereas Python's decoder keeps the last one.
- Http.HeadersJson: `Content-Type` and `Content-Length` are treated like other headers. The WSGI server keeps only the last of a repeated one instead of joining them, and `dict(headers)` leaves out an empty one.
- Http.DisplayName: title-casing is ASCII only. Python's `title()` also changes the case of non-ASCII letters.
- Http.HeaderValue: the development server that `app.run` starts (app.py:179) drops every header whose name holds `_` before the app sees it; the model reads every header it is given. So `X_Webhook_Source` never reaches the program, and in a request carrying `X-Webhook-Signature: <good>` and `X_Webhook_Signature: x` the program sees only the good one and answers 200, where the model joins both and answers 401 (`App.RepeatedSignatureRefused`). The lemma holds as stated for two headers spelt with `-`.

=== FILE: analyzer.dfy ===
/** The rule-based classifier of ai_analyzer.py: a total function from a
    decoded payload and a source tag to an analysis record, plus the wrapper
    that extracts both from a webhook record and turns a failure into an
    error record. */
module Analyzer {
  import opened Results
  import opened JsonValues
  import opened Text

  datatype Level = High | Medium | Low {
    function Name(): string
    {
      match this
      case High => "high"
      case Medium => "medium"
      case Low => "low"
    }
  }

  /** The `data_type` tag derived from which keys the payload carries. */
  datatype DataTag = UserRelated | Financial {
    function Name(): string
    {
      match this
      case UserRelated => "user_related"
      case Financial => "financial"
    }
  }

  /** The analysis dict: `source`, `event_type`, `importance`, `summary`,
      `actions`, `risks`, and `data_type` when a key group matched. */
  datatype Analysis = Analysis(
    source: Json,
    eventType: Json,
    importance: Level,
    summary: string,
    actions: seq<string>,
    risks: seq<string>,
    dataType: Option<DataTag>)
  {
    /** The dict with its keys in insertion order; `data_type` is inserted
        after `risks`, whichever tag set it. */
    function ToJson(): Json
    {
      match dataType
      case None => JObj(BaseFields())
      case Some(t) => JObj(BaseFields() + [Field("data_type", JStr(t.Name()))])
    }

    /** The six keys every analysis has, in insertion order. */
    function BaseFields(): (fs: seq<Field>)
      ensures |fs| == 6 && fs[0] == Field("source", source)
      ensures fs[1].key == "event_type" && fs[2] == Field("importance", JStr(importance.Name()))
      ensures fs[3].key == "summary" && fs[4].key == "actions" && fs[5].key == "risks"
    {
      [ Field("source", source),
        Field("event_type", eventType),
        Field("importance", JStr(importance.Name())),
        Field("summary", JStr(summary)),
        Field("actions", JArr(seq(|actions|, i requires 0 <= i < |actions| => JStr(actions[i])))),
        Field("risks", JArr(seq(|risks|, i requires 0 <= i < |risks| => JStr(risks[i])))) ]
    }
  }

  /** The dict of an analysis answers `source` and `importance` with the
      record's own values, and has a `data_type` key exactly when a tag was
      set. */
  lemma AnalysisJsonFields(a: Analysis)
    ensures a.ToJson().JObj?
    ensures Get(a.ToJson().fields, "importance") == Some(JStr(a.importance.Name()))
    ensures Get(a.ToJson().fields, "source") == Some(a.source)
    ensures HasKey(a.ToJson().fields, "data_type") <==> a.dataType.Some?
  {
    var base := a.BaseFields();
    var rest := if a.dataType.Some? then [Field("data_type", JStr(a.dataType.value.Name()))] else [];
    assert a.ToJson().fields == base + rest;
    BaseLookups(a);
    GetAppend(base, rest, "importance");
    GetAppend(base, rest, "source");
    GetAppend(base, rest, "data_type");
  }

  lemma BaseLookups(a: Analysis)
    ensures Get(a.BaseFields(), "importance") == Some(JStr(a.importance.Name()))
    ensures Get(a.BaseFields(), "source") == Some(a.source)
    ensures Get(a.BaseFields(), "data_type") == None
  {
    SixKeyLookups(a.BaseFields());
  }

  lemma SixKeyLookups(fs: seq<Field>)
    requires |fs| == 6 && fs[0].key == "source" && fs[1].key == "event_type" && fs[2].key == "importance"
    requires fs[3].key == "summary" && fs[4].key == "actions" && fs[5].key == "risks"
    ensures Get(fs, "importance") == Some(fs[2].value)
    ensures Get(fs, "source") == Some(fs[0].value)
    ensures Get(fs, "data_type") == None
  {
    assert Get(fs, "source") == Some(fs[0].value);
    ImportanceLookup(fs);
    DataTypeAbsent(fs);
  }

  lemma ImportanceLookup(fs: seq<Field>)
    requires |fs| >= 3 && fs[0].key == "source" && fs[1].key == "event_type" && fs[2].key == "importance"
    ensures Get(fs, "importance") == Some(fs[2].value)
  {
    EventTypeIsNotImportance();
    forall j | 0 <= j < 2 ensures fs[j].key != "importance" {
      if j == 0 { assert |fs[j].key| == 6; } else {}
    }
    GetFirst(fs, "importance", 2);
  }

  lemma EventTypeIsNotImportance()
    ensures "event_type" != "importance"
  {
    assert "event_type"[0] != "importance"[0];
  }

  lemma DataTypeAbsent(fs: seq<Field>)
    requires |fs| == 6 && fs[0].key == "source" && fs[1].key == "event_type" && fs[2].key == "importance"
    requires fs[3].key == "summary" && fs[4].key == "actions" && fs[5].key == "risks"
    ensures Get(fs, "data_type") == None
  {
    forall i | 0 <= i < |fs|
      ensures |fs[i].key| != |"data_type"|
    {
      if i == 0 {} else if i == 1 {} else if i == 2 {} else if i == 3 {} else if i == 4 {} else {}
    }
    NoKeyOfOtherLength(fs, "data_type");
  }

  const CriticalWords: seq<string> := ["error", "failure", "critical", "alert"]
  const CompletionWords: seq<string> := ["success", "completed", "finished"]
  const BusinessWords: seq<string> := ["user", "order", "payment"]

  const CriticalPrefix: string := "检测到严重事件: "
  const CompletionPrefix: string := "正常完成事件: "
  const BusinessPrefix: string := "业务关键事件: "
  const GeneralPrefix: string := "一般事件: "

  const InspectLogs: string := "立即查看详细日志"
  const NotifyOwner: string := "通知相关负责人"
  const RecordToLog: string := "记录到日志"
  const VerifyIntegrity: string := "验证数据完整性"
  const UpdateBusinessState: string := "更新业务状态"
  const RoutineHandling: string := "常规处理"

  const StabilityRisk: string := "可能影响服务稳定性"
  const FinancialRisk: string := "涉及财务数据,需要额外验证"

  /** `any(keyword in text for keyword in words)`. */
  predicate MentionsAny(text: string, words: seq<string>)
  {
    exists w :: w in words && IsSubstring(w, text)
  }

  /** `str(data.get('event', '')).lower()`: the text the branches test. */
  function EventText(data: seq<Field>): string
  {
    Lower(Str(Get(data, "event").GetOr(JStr(""))))
  }

  /** `str()` of a dict `event` shows its plain string values, so a keyword
      in one of them is found in the event text. */
  lemma NestedKeywordFound(data: seq<Field>, fields: seq<Field>, i: int, s: string, word: string)
    requires Get(data, "event") == Some(JObj(fields))
    requires 0 <= i < |fields| && fields[i].value == JStr(s) && Plain(s)
    requires IsSubstring(word, Lower(s))
    ensures IsSubstring(word, EventText(data))
  {
    var shown := Str(JObj(fields));
    var pre, post := PlainValueShown(fields, i, s);
    SubstringAt(s, pre, post);
    LowerSubstring(s, shown);
    assert EventText(data) == Lower(shown);
    SubstringTransitive(word, Lower(s), Lower(shown));
  }

  predicate HasUserKeys(data: seq<Field>)
  {
    HasKey(data, "user_id") || HasKey(data, "email")
  }

  predicate HasFinancialKeys(data: seq<Field>)
  {
    HasKey(data, "amount") || HasKey(data, "price")
  }

  /** What the if/elif/elif/else chain sets: importance, summary, actions
      and risks, before the key tags are added. */
  datatype Verdict = Verdict(importance: Level, summary: string, actions: seq<string>, risks: seq<string>)

  function Judge(event: string): Verdict
  {
    if MentionsAny(event, CriticalWords) then
      Verdict(High, CriticalPrefix + event, [InspectLogs, NotifyOwner], [StabilityRisk])
    else if MentionsAny(event, CompletionWords) then
      Verdict(Low, CompletionPrefix + event, [RecordToLog], [])
    else if MentionsAny(event, BusinessWords) then
      Verdict(High, BusinessPrefix + event, [VerifyIntegrity, UpdateBusinessState], [])
    else
      Verdict(Medium, GeneralPrefix + event, [RoutineHandling], [])
  }

  /** The summary used when the chain left it empty. */
  function FallbackSummary(source: Json): string
  {
    "收到来自 " + Str(source) + " 的 webhook 事件"
  }

  /** `analyze_with_rules(data, source)`.  Importance is decided by the first
      keyword group the lower-cased event mentions, in the order critical,
      completion, business; the `financial` tag wins over `user_related`
      and adds the financial risk at the end of `risks`. */
  function AnalyzeWithRules(data: seq<Field>, source: Json): (r: Analysis)
    ensures r.source == source
    ensures r.eventType == Get(data, "event").GetOr(JStr("unknown"))
    ensures r.summary != ""
    ensures 1 <= |r.actions| <= 2 && |r.risks| <= 2
    ensures r.importance == High <==>
              MentionsAny(EventText(data), CriticalWords)
              || (!MentionsAny(EventText(data), CompletionWords) && MentionsAny(EventText(data), BusinessWords))
    ensures r.importance == Low <==>
              !MentionsAny(EventText(data), CriticalWords) && MentionsAny(EventText(data), CompletionWords)
    ensures r.dataType == Some(Financial) <==> HasFinancialKeys(data)
    ensures r.dataType == Some(UserRelated) <==> HasUserKeys(data) && !HasFinancialKeys(data)
    ensures HasFinancialKeys(data) <==> FinancialRisk in r.risks
    ensures HasFinancialKeys(data) ==> r.risks[|r.risks| - 1] == FinancialRisk
  {
    var v := Judge(EventText(data));
    var tag :=
      if HasFinancialKeys(data) then Some(Financial)
      else if HasUserKeys(data) then Some(UserRelated)
      else None;
    var risks := if HasFinancialKeys(data) then v.risks + [FinancialRisk] else v.risks;
    var summary := if v.summary == "" then FallbackSummary(source) else v.summary;
    Analysis(source, Get(data, "event").GetOr(JStr("unknown")), v.importance, summary, v.actions, risks, tag)
  }

  /** The first branch wins: an event naming a critical keyword is `high`
      with the two urgent actions and the stability risk first, whatever
      else it mentions. */
  lemma CriticalBranch(data: seq<Field>, source: Json)
    requires MentionsAny(EventText(data), CriticalWords)
    ensures var r := AnalyzeWithRules(data, source);
      && r.importance == High
      && r.summary == CriticalPrefix + EventText(data)
      && r.actions == [InspectLogs, NotifyOwner]
      && r.risks[0] == StabilityRisk
  {
  }

  /** A completion event that is not critical is `low` with the single
      logging action. */
  lemma CompletionBranch(data: seq<Field>, source: Json)
    requires !MentionsAny(EventText(data), CriticalWords)
    requires MentionsAny(EventText(data), CompletionWords)
    ensures var r := AnalyzeWithRules(data, source);
      && r.importance == Low
      && r.summary == CompletionPrefix + EventText(data)
      && r.actions == [RecordToLog]
      && StabilityRisk !in r.risks
  {
  }

  /** A business event that is neither critical nor a completion is `high`
      with the two data-integrity actions. */
  lemma BusinessBranch(data: seq<Field>, source: Json)
    requires !MentionsAny(EventText(data), CriticalWords)
    requires !MentionsAny(EventText(data), CompletionWords)
    requires MentionsAny(EventText(data), BusinessWords)
    ensures var r := AnalyzeWithRules(data, source);
      && r.importance == High
      && r.summary == BusinessPrefix + EventText(data)
      && r.actions == [VerifyIntegrity, UpdateBusinessState]
      && StabilityRisk !in r.risks
  {
  }

  /** Any other event keeps the default `medium` and gets routine handling. */
  lemma GeneralBranch(data: seq<Field>, source: Json)
    requires !MentionsAny(EventText(data), CriticalWords)
    requires !MentionsAny(EventText(data), CompletionWords)
    requires !MentionsAny(EventText(data), BusinessWords)
    ensures var r := AnalyzeWithRules(data, source);
      && r.importance == Medium
      && r.summary == GeneralPrefix + EventText(data)
      && r.actions == [RoutineHandling]
  {
  }

  /** The event text of a payload whose `event` is a string without
      capitals is that string itself. */
  lemma EventTextOf(e: string)
    requires forall i :: 0 <= i < |e| ==> !('A' <= e[i] <= 'Z')
    ensures EventText([Field("event", JStr(e))]) == e
  {
    LowerOfLower(e);
  }

  /** Every critical keyword has an `r`, so a text without one is not
      critical. */
  lemma NoRIsNotCritical(e: string)
    requires 'r' !in e
    ensures !MentionsAny(e, CriticalWords)
  {
    MissingChar("error", e, 'r');
    MissingChar("failure", e, 'r');
    MissingChar("critical", e, 'r');
    MissingChar("alert", e, 'r');
  }

  /** Every completion keyword has an `s` or a `c`. */
  lemma NoSOrCIsNotCompletion(e: string)
    requires 's' !in e && 'c' !in e
    ensures !MentionsAny(e, CompletionWords)
  {
    MissingChar("success", e, 's');
    MissingChar("completed", e, 'c');
    MissingChar("finished", e, 's');
  }

  /** `payment_failed` is a business event, not a critical one: `failed`
      is not one of the critical keywords. */
  lemma PaymentFailedIsBusiness(source: Json)
    ensures var r := AnalyzeWithRules([Field("event", JStr("payment_failed"))], source);
      r.importance == High && r.summary == BusinessPrefix + "payment_failed"
  {
    PaymentFailedText();
    PaymentEvent([Field("event", JStr("payment_failed"))], "payment_failed", source);
  }

  lemma PaymentFailedText()
    ensures EventText([Field("event", JStr("payment_failed"))]) == "payment_failed"
    ensures var e := "payment_failed";
      'r' !in e && 's' !in e && 'c' !in e && IsSubstring("payment", e)
  {
    PaymentFailedLetters();
    EventTextOf("payment_failed");
    PaymentInPaymentFailed();
  }

  lemma PaymentInPaymentFailed()
    ensures IsSubstring("payment", "payment_failed")
  {
    SubstringAt("payment", "", "_failed");
    assert "" + "payment" + "_failed" == "payment_failed";
  }

  lemma PaymentFailedLetters()
    ensures 'r' !in "payment_failed" && 's' !in "payment_failed" && 'c' !in "payment_failed"
    ensures forall i :: 0 <= i < |"payment_failed"| ==> !('A' <= "payment_failed"[i] <= 'Z')
  {
  }

  lemma JobCompletedLetters()
    ensures 'r' !in "job_completed"
    ensures forall i :: 0 <= i < |"job_completed"| ==> !('A' <= "job_completed"[i] <= 'Z')
  {
  }

  /** `job_completed` is a completion event and so `low`. */
  lemma JobCompletedIsLow(source: Json)
    ensures AnalyzeWithRules([Field("event", JStr("job_completed"))], source).importance == Low
  {
    JobCompletedText();
    CompletedEvent([Field("event", JStr("job_completed"))], "job_completed", source);
  }

  lemma JobCompletedText()
    ensures EventText([Field("event", JStr("job_completed"))]) == "job_completed"
    ensures var e := "job_completed";
      'r' !in e && IsSubstring("completed", e)
  {
    JobCompletedLetters();
    EventTextOf("job_completed");
    CompletedInJobCompleted();
  }

  lemma CompletedInJobCompleted()
    ensures IsSubstring("completed", "job_completed")
  {
    SubstringAt("completed", "job_", "");
    assert "job_" + "completed" + "" == "job_completed";
  }

  /** A payload whose event text has no `r`, `s` or `c` and mentions
      `payment` is a business event. */
  lemma PaymentEvent(data: seq<Field>, e: string, source: Json)
    requires EventText(data) == e
    requires 'r' !in e && 's' !in e && 'c' !in e && IsSubstring("payment", e)
    ensures var r := AnalyzeWithRules(data, source);
      r.importance == High && r.summary == BusinessPrefix + e
  {
    NoRIsNotCritical(e);
    NoSOrCIsNotCompletion(e);
    assert "payment" in BusinessWords;
    BusinessBranch(data, source);
  }

  /** `{"event": {"x": "ERROR"}}` is critical: the nested value shows in
      `str()` of the event and lower-cases to `error`. */
  lemma NestedErrorIsCritical(source: Json)
    ensures AnalyzeWithRules([Field("event", JObj([Field("x", JStr("ERROR"))]))], source).importance == High
  {
    var data := [Field("event", JObj([Field("x", JStr("ERROR"))]))];
    assert Lower("ERROR") == "error";
    assert IsSubstring("error", "error") by {
      SubstringAt("error", "", "");
    }
    NestedKeywordFound(data, [Field("x", JStr("ERROR"))], 0, "ERROR", "error");
    assert "error" in CriticalWords;
    CriticalBranch(data, source);
  }

  /** A payload whose event text has no `r` and mentions `completed` is a
      completion event. */
  lemma CompletedEvent(data: seq<Field>, e: string, source: Json)
    requires EventText(data) == e
    requires 'r' !in e && IsSubstring("completed", e)
    ensures AnalyzeWithRules(data, source).importance == Low
  {
    NoRIsNotCritical(e);
    assert "completed" in CompletionWords;
    CompletionBranch(data, source);
  }

  // ---------------------------------------------------------------------
  // analyze_webhook_with_ai
  // ---------------------------------------------------------------------

  const FailurePrefix: string := "分析失败: "

  /** Either the rule-based analysis or the error record
      `{status: 'error', message, importance: 'unknown'}`. */
  datatype AiOutcome = Analyzed(analysis: Analysis) | AnalysisFailed(message: string) {
    function ToJson(): (j: Json)
      ensures j.JObj?
      ensures AnalysisFailed? ==>
                j == JObj([Field("status", JStr("error")), Field("message", JStr(message)),
                           Field("importance", JStr("unknown"))])
      ensures AnalysisFailed? ==> Get(j.fields, "importance") == Some(JStr("unknown"))
      ensures Analyzed? ==> Get(j.fields, "importance") == Some(JStr(analysis.importance.Name()))
    {
      match this
      case Analyzed(a) => AnalysisJsonFields(a); a.ToJson()
      case AnalysisFailed(m) =>
        var fields := [Field("status", JStr("error")), Field("message", JStr(m)), Field("importance", JStr("unknown"))];
        GetFirst(fields, "importance", 2);
        JObj(fields)
    }
  }

  /** `analyze_webhook_with_ai(webhook_data)`: reads `source` (default
      `'unknown'`) and `parsed_data` (default `{}`) with `.get`, and runs the
      rules.  The defaults apply only to absent keys; a `parsed_data` that is
      present but not a dict, or a `webhook_data` that is not a dict, makes
      `.get` raise, and the exception becomes the error record. */
  function AnalyzeWebhook(webhookData: Json): (r: AiOutcome)
    ensures r.AnalysisFailed? <==>
              !webhookData.JObj?
              || !Get(webhookData.fields, "parsed_data").GetOr(EmptyObj).JObj?
    ensures r.AnalysisFailed? ==> Get(r.ToJson().fields, "importance") == Some(JStr("unknown"))
    ensures !webhookData.JObj? ==> r == AnalysisFailed(FailurePrefix + NoGetMessage(webhookData))
    ensures webhookData.JObj? && r.AnalysisFailed? ==>
              && HasKey(webhookData.fields, "parsed_data")
              && r.message == FailurePrefix + NoGetMessage(Get(webhookData.fields, "parsed_data").value)
    ensures r.Analyzed? ==>
              var source := Get(webhookData.fields, "source").GetOr(JStr("unknown"));
              var parsed := Get(webhookData.fields, "parsed_data").GetOr(EmptyObj);
              r.analysis == AnalyzeWithRules(parsed.fields, source)
  {
    match GetOrDefault(webhookData, "source", JStr("unknown"))
    case Failure(e) => AnalysisFailed(FailurePrefix + e)
    case Success(source) =>
      match GetOrDefault(webhookData, "parsed_data", EmptyObj)
      case Failure(e) => AnalysisFailed(FailurePrefix + e)
      case Success(parsed) =>
        match parsed
        case JObj(data) => Analyzed(AnalyzeWithRules(data, source))
        case _ => AnalysisFailed(FailurePrefix + NoGetMessage(parsed))
  }

  /** A webhook record without `parsed_data` is analysed as an empty
      payload: general event, `medium`, tagged with its source. */
  lemma MissingPayloadIsGeneral(source: string)
    ensures var r := AnalyzeWebhook(JObj([Field("source", JStr(source))]));
      && r.Analyzed?
      && r.analysis.importance == Medium
      && r.analysis.source == JStr(source)
      && r.analysis.summary == GeneralPrefix
  {
    var e := EventText([]);
    assert e == "";
    NoRIsNotCritical(e);
    NoSOrCIsNotCompletion(e);
    MissingChar("user", e, 'u');
    MissingChar("order", e, 'o');
    MissingChar("payment", e, 'p');
  }

  /** A `parsed_data` of `null` is not replaced by the default: the
      analysis fails with the `NoneType` message. */
  lemma NullPayloadFails()
    ensures AnalyzeWebhook(JObj([Field("parsed_data", JNull)]))
            == AnalysisFailed(FailurePrefix + NoGetMessage(JNull))
  {
    var fields := [Field("parsed_data", JNull)];
    assert Get(fields, "source") == None by {
      NoKeyOfOtherLength(fields, "source");
    }
    GetFirst(fields, "parsed_data", 0);
  }
}

=== FILE: app.dfy ===
/** The two webhook endpoints of app.py, `POST /webhook` and
    `POST /webhook/<source>`: check the signature when one is sent, parse
    the JSON body, save the record, and answer. */
module App {
  import opened Results
  import opened JsonValues
  import opened Text
  import opened Http
  import Settings
  import Signature
  import ClientAddress
  import Store

  /** What the framework's JSON parsing of the body produced: a value, or
      an error (a malformed body or an unsupported content type). */
  datatype JsonParse = ParsedJson(value: Json) | MalformedJson

  /** An inbound request: headers, the peer address of the connection,
      the body, and the outcome of parsing it as JSON. */
  datatype Request = Request(headers: seq<Header>, peer: Option<string>, body: Body, json: JsonParse)

  /** What Flask's default `<source>` converter matches: one non-empty path
      segment, which never holds `/`. */
  type Segment = s: string | s != [] && '/' !in s witness "x"

  /** `/webhook` takes the source from the `X-Webhook-Source` header;
      `/webhook/<source>` takes it from the path. */
  datatype Route = Generic | Tagged(source: Segment)

  datatype Response = Response(status: int, body: Json)

  /** The answer and the data directory after the request. */
  datatype Exchange = Exchange(response: Response, dir: Option<Store.Directory>)

  /** The clock readings a request takes: for the file name, for the
      record, and for the reply. */
  datatype Stamps = Stamps(file: string, record: string, reply: string)

  const InvalidSignature: string := "Invalid signature"
  const InvalidJson: string := "Invalid JSON payload"
  const InternalError: string := "Internal server error"
  const Received: string := "Webhook received successfully"

  function SourceOf(route: Route, headers: seq<Header>): (source: string)
    ensures route.Tagged? ==> source == route.source
    ensures route.Generic? && HeaderValue(headers, "X-Webhook-Source").None? ==> source == "unknown"
    ensures route.Generic? && HeaderValue(headers, "X-Webhook-Source").Some? ==>
              source == HeaderValue(headers, "X-Webhook-Source").value
  {
    match route
    case Tagged(s) => s
    case Generic => HeaderValue(headers, "X-Webhook-Source").GetOr("unknown")
  }

  /** Only the header can lead the file out of the data directory: a path
      segment never holds `/`. */
  lemma TaggedSourceInDataDir(route: Route, headers: seq<Header>, stamp: string)
    requires route.Tagged? && '/' !in stamp
    ensures Store.InDataDir(Store.FileName(SourceOf(route, headers), stamp))
  {
  }

  /** The signature header, `""` when absent. */
  function SignatureOf(headers: seq<Header>): string
  {
    HeaderValue(headers, "X-Webhook-Signature").GetOr("")
  }

  /** `{'success': False, 'error': message}`: a refusal names its reason
      and nothing else. */
  function ErrorBody(message: string): (j: Json)
    ensures j.JObj? && Get(j.fields, "success") == Some(JBool(false))
    ensures Get(j.fields, "error") == Some(JStr(message))
  {
    assert Get([Field("error", JStr(message))], "error") == Some(JStr(message));
    JObj([Field("success", JBool(false)), Field("error", JStr(message))])
  }

  function Fail(status: int, message: string, dir: Option<Store.Directory>): Exchange
  {
    Exchange(Response(status, ErrorBody(message)), dir)
  }

  /** The reply to an accepted webhook: `/webhook` reports the saved path,
      `/webhook/<source>` names the source instead. */
  function Accepted(route: Route, path: string, stamp: string): (j: Json)
    ensures j.JObj? && |j.fields| == 4 && j.fields[0] == Field("success", JBool(true))
  {
    var last := match route
      case Generic => Field("data_saved", JStr(path))
      case Tagged(s) => Field("source", JStr(s));
    var message := match route
      case Generic => Received
      case Tagged(s) => "Webhook from " + s + " received successfully";
    JObj(ReplyFields(message, stamp, last))
  }

  /** What the reply to an accepted webhook says: success, the fixed or
      per-source message, the reply time, and the saved path or the source,
      never both. */
  lemma AcceptedReply(route: Route, path: string, stamp: string)
    ensures var j := Accepted(route, path, stamp);
      && Get(j.fields, "success") == Some(JBool(true))
      && Get(j.fields, "timestamp") == Some(JStr(stamp))
      && (route.Generic? ==>
            && Get(j.fields, "message") == Some(JStr(Received))
            && Get(j.fields, "data_saved") == Some(JStr(path))
            && !HasKey(j.fields, "source"))
      && (route.Tagged? ==>
            && Get(j.fields, "message") == Some(JStr("Webhook from " + route.source + " received successfully"))
            && Get(j.fields, "source") == Some(JStr(route.source))
            && !HasKey(j.fields, "data_saved"))
  {
    match route
    case Generic =>
      ReplyLookups(Received, stamp, Field("data_saved", JStr(path)));
    case Tagged(s) =>
      ReplyLookups("Webhook from " + s + " received successfully", stamp, Field("source", JStr(s)));
  }

  function ReplyFields(message: string, stamp: string, last: Field): seq<Field>
  {
    [Field("success", JBool(true)), Field("message", JStr(message)), Field("timestamp", JStr(stamp)), last]
  }

  lemma ReplyLookups(message: string, stamp: string, last: Field)
    requires last.key == "data_saved" || last.key == "source"
    ensures var fields := ReplyFields(message, stamp, last);
      && Get(fields, "success") == Some(JBool(true))
      && Get(fields, "message") == Some(JStr(message))
      && Get(fields, "timestamp") == Some(JStr(stamp))
      && Get(fields, last.key) == Some(last.value)
      && !HasKey(fields, if last.key == "source" then "data_saved" else "source")
  {
    var fields := ReplyFields(message, stamp, last);
    ReplyMessage(fields, message);
    ReplyStamp(fields, stamp);
    ReplyLast(fields, last);
    ReplyLacksOther(fields, if last.key == "source" then "data_saved" else "source");
  }

  // The lookups below tell the reply's keys apart by their lengths
  // (`success` and `message` 7, `timestamp` 9, `data_saved` 10, `source` 6):
  // the solver compares two lengths at once, two literal strings only
  // character by character.

  lemma ReplyMessage(fields: seq<Field>, message: string)
    requires |fields| >= 2 && fields[0].key == "success" && fields[1] == Field("message", JStr(message))
    ensures Get(fields, "message") == Some(JStr(message))
  {
    assert fields[0].key[0] != "message"[0];
    GetFirst(fields, "message", 1);
  }

  lemma ReplyStamp(fields: seq<Field>, stamp: string)
    requires |fields| >= 3 && |fields[0].key| == 7 && |fields[1].key| == 7
    requires fields[2] == Field("timestamp", JStr(stamp))
    ensures Get(fields, "timestamp") == Some(JStr(stamp))
  {
    GetFirst(fields, "timestamp", 2);
  }

  lemma ReplyLast(fields: seq<Field>, last: Field)
    requires |fields| == 4 && |fields[0].key| == 7 && |fields[1].key| == 7 && |fields[2].key| == 9
    requires fields[3] == last && (|last.key| == 6 || |last.key| == 10)
    ensures Get(fields, last.key) == Some(last.value)
  {
    GetFirst(fields, last.key, 3);
  }

  /** None of the reply's keys has the length of `other`. */
  lemma ReplyLacksOther(fields: seq<Field>, other: string)
    requires |fields| == 4
    requires |fields[0].key| == 7 && |fields[1].key| == 7 && |fields[2].key| == 9
    requires (|fields[3].key| == 10 && |other| == 6) || (|fields[3].key| == 6 && |other| == 10)
    ensures !HasKey(fields, other)
  {
    forall j | 0 <= j < |fields| ensures fields[j].key != other {
      assert |fields[j].key| != |other|;
    }
  }

  /** The save a request that got past the signature and JSON checks
      performs: no analysis is attached. */
  function SaveOf(cfg: Settings.Config, route: Route, req: Request, data: Json,
                  dir: Option<Store.Directory>, stamps: Stamps, writable: bool): Store.SaveOutcome
  {
    Store.Save(cfg, dir, data, SourceOf(route, req.headers), Some(req.body), Some(req.headers),
               ClientAddress.ClientIp(req.headers, req.peer), JNull, stamps.file, stamps.record, writable)
  }

  /** `receive_webhook` and `receive_webhook_with_source`.  A non-empty
      signature header is checked against the configured secret: a
      mismatch answers 401 and a comparison that raises answers 500.  A body
      that does not parse answers 400.  Otherwise the record is saved; a
      save that raises answers 500, and a save that succeeds answers 200.
      Nothing is written before the signature and JSON checks pass. */
  function Receive(cfg: Settings.Config, mac: Signature.Mac, route: Route, req: Request,
                   dir: Option<Store.Directory>, stamps: Stamps, writable: bool): (r: Exchange)
    ensures r.response.status in {200, 400, 401, 500}
    ensures r.response.body.JObj?
    ensures Get(r.response.body.fields, "success") == Some(JBool(r.response.status == 200))
    ensures var sig := SignatureOf(req.headers);
      r.response.status == 401 <==>
        sig != "" && Signature.Verify(mac, cfg, req.body.bytes, sig, None) == Success(false)
    ensures var sig := SignatureOf(req.headers);
      sig != "" && !IsAscii(sig) ==> r.response.status == 500 && r.dir == dir
    ensures var sig := SignatureOf(req.headers);
      (sig == "" || Signature.Verify(mac, cfg, req.body.bytes, sig, None) == Success(true)) ==>
        && (req.json.MalformedJson? <==> r.response.status == 400)
        && (req.json.MalformedJson? ==> r.dir == dir)
        && (req.json.ParsedJson? ==>
              var saved := SaveOf(cfg, route, req, req.json.value, dir, stamps, writable);
              && r.dir == saved.dir
              && (r.response.status == 200 <==> saved.path.Success?))
    ensures r.response.status != 200 ==>
              r.response.body == ErrorBody(if r.response.status == 401 then InvalidSignature
                                           else if r.response.status == 400 then InvalidJson
                                           else InternalError)
    ensures r.response.status == 200 ==>
              && req.json.ParsedJson?
              && r.response.body == Accepted(route,
                   SaveOf(cfg, route, req, req.json.value, dir, stamps, writable).path.value, stamps.reply)
  {
    var sig := SignatureOf(req.headers);
    var verdict := if sig == "" then Success(true) else Signature.Verify(mac, cfg, req.body.bytes, sig, None);
    match verdict
    case Failure(_) => Fail(500, InternalError, dir)
    case Success(false) => Fail(401, InvalidSignature, dir)
    case Success(true) =>
      match req.json
      case MalformedJson => Fail(400, InvalidJson, dir)
      case ParsedJson(data) =>
        var saved := SaveOf(cfg, route, req, data, dir, stamps, writable);
        match saved.path
        case Failure(_) => Fail(500, InternalError, saved.dir)
        case Success(path) =>
          Exchange(Response(200, Accepted(route, path, stamps.reply)), saved.dir)
  }

  /** A request that is not answered 200 leaves every saved file as it
      was and adds none; at most the empty data directory is created. */
  lemma RefusedRequestWritesNothing(cfg: Settings.Config, mac: Signature.Mac, route: Route, req: Request,
                                    dir: Option<Store.Directory>, stamps: Stamps, writable: bool)
    requires Receive(cfg, mac, route, req, dir, stamps, writable).response.status != 200
    ensures Store.Files(Receive(cfg, mac, route, req, dir, stamps, writable).dir) == Store.Files(dir)
  {
  }

  /** An accepted request adds or replaces exactly one file, named after
      the source and the file stamp, holding the saved record with the
      request's payload under `parsed_data`.  When the source holds `/` the
      file is written outside the data directory's entries, and they stay
      as they were. */
  lemma AcceptedRequestSavesOneFile(cfg: Settings.Config, mac: Signature.Mac, route: Route, req: Request,
                                    dir: Option<Store.Directory>, stamps: Stamps, writable: bool)
    ensures var r := Receive(cfg, mac, route, req, dir, stamps, writable);
      var after := Store.Files(r.dir);
      var name := Store.FileName(SourceOf(route, req.headers), stamps.file);
      r.response.status == 200 ==>
      && req.json.ParsedJson?
      && (Store.InDataDir(name) ==>
            Store.HoldsSaved(after, Store.Files(dir), name, req.json.value, SourceOf(route, req.headers)))
      && (!Store.InDataDir(name) ==> after == Store.Files(dir))
  {
    var r := Receive(cfg, mac, route, req, dir, stamps, writable);
    if r.response.status == 200 {
      var source := SourceOf(route, req.headers);
      var ip := ClientAddress.ClientIp(req.headers, req.peer);
      Store.SavedFileHolds(cfg, dir, req.json.value, source, Some(req.body), Some(req.headers), ip, JNull,
                           stamps.file, stamps.record, writable);
    }
  }

  /** A request signed with the configured secret whose body parses and is
      UTF-8 is accepted when the file can be written. */
  lemma SignedRequestAccepted(cfg: Settings.Config, mac: Signature.Mac, route: Route, req: Request,
                              dir: Option<Store.Directory>, stamps: Stamps)
    requires SignatureOf(req.headers) == Signature.ExpectedSignature(mac, cfg.webhookSecret, req.body.bytes)
    requires req.json.ParsedJson? && (req.body.bytes == [] || req.body.text.Some?)
    ensures Receive(cfg, mac, route, req, dir, stamps, true).response.status == 200
  {
  }

  /** A request whose ASCII signature is not the expected one is refused
      with 401 and nothing is written. */
  lemma ForgedRequestRefused(cfg: Settings.Config, mac: Signature.Mac, route: Route, req: Request,
                             dir: Option<Store.Directory>, stamps: Stamps, writable: bool)
    requires SignatureOf(req.headers) != ""
    requires IsAscii(SignatureOf(req.headers))
    requires SignatureOf(req.headers) != Signature.ExpectedSignature(mac, cfg.webhookSecret, req.body.bytes)
    ensures var r := Receive(cfg, mac, route, req, dir, stamps, writable);
      r.response.status == 401 && r.dir == dir
  {
  }

  /** A request that carries the signature header twice is never accepted:
      the server reads the two values joined by a comma, which is no hex
      digit, so the comparison answers false, or raises for a non-ASCII
      value, and nothing is written. */
  lemma RepeatedSignatureRefused(cfg: Settings.Config, mac: Signature.Mac, route: Route, req: Request,
                                 dir: Option<Store.Directory>, stamps: Stamps, writable: bool, i: int, j: int)
    requires 0 <= i < j < |req.headers|
    requires SameName(req.headers[i].name, "X-Webhook-Signature")
    requires SameName(req.headers[j].name, "X-Webhook-Signature")
    ensures var r := Receive(cfg, mac, route, req, dir, stamps, writable);
      (r.response.status == 401 || r.response.status == 500) && r.dir == dir
  {
    var sig := SignatureOf(req.headers);
    RepeatedHeaderHasComma(req.headers, "X-Webhook-Signature", i, j);
    var c :| 0 <= c < |sig| && sig[c] == ',';
    if IsAscii(sig) {
      Signature.NonHexSignatureRejected(mac, cfg, req.body.bytes, sig, c);
    }
  }

  /** An accepted webhook saved in the data directory appears, tagged with
      its file name, in a listing whose limit admits every file.  One whose
      source holds `/` leaves the listing as it was. */
  lemma AcceptedRequestIsListed(cfg: Settings.Config, mac: Signature.Mac, route: Route, req: Request,
                                dir: Option<Store.Directory>, stamps: Stamps, writable: bool,
                                names: seq<string>, limit: int)
    ensures var r := Receive(cfg, mac, route, req, dir, stamps, writable);
      var name := Store.FileName(SourceOf(route, req.headers), stamps.file);
      (&& r.response.status == 200 && Store.InDataDir(name)
       && r.dir.Some? && Store.IsListing(names, r.dir.value) && limit >= |names|
       && Store.ListWebhooks(r.dir, names, limit).Success?)
      ==> exists record :: record in Store.ListWebhooks(r.dir, names, limit).value
                           && Get(record, "parsed_data") == Some(req.json.value)
                           && Get(record, "filename") == Some(JStr(name))
    ensures var r := Receive(cfg, mac, route, req, dir, stamps, writable);
      var name := Store.FileName(SourceOf(route, req.headers), stamps.file);
      r.response.status == 200 && !Store.InDataDir(name) && Store.IsListing(names, Store.Files(dir)) ==>
        && r.dir == Some(Store.Files(dir))
        && Store.ListWebhooks(r.dir, names, limit) == Store.ListWebhooks(Some(Store.Files(dir)), names, limit)
  {
    var r := Receive(cfg, mac, route, req, dir, stamps, writable);
    var name := Store.FileName(SourceOf(route, req.headers), stamps.file);
    if && r.response.status == 200 && Store.InDataDir(name)
       && r.dir.Some? && Store.IsListing(names, r.dir.value) && limit >= |names|
       && Store.ListWebhooks(r.dir, names, limit).Success?
    {
      ListedAfterAcceptance(cfg, mac, route, req, dir, stamps, writable, names, limit);
    }
  }

  lemma ListedAfterAcceptance(cfg: Settings.Config, mac: Signature.Mac, route: Route, req: Request,
                              dir: Option<Store.Directory>, stamps: Stamps, writable: bool,
                              names: seq<string>, limit: int)
    requires Receive(cfg, mac, route, req, dir, stamps, writable).response.status == 200
    requires Store.InDataDir(Store.FileName(SourceOf(route, req.headers), stamps.file))
    requires Receive(cfg, mac, route, req, dir, stamps, writable).dir.Some?
    requires Store.IsListing(names, Receive(cfg, mac, route, req, dir, stamps, writable).dir.value)
    requires limit >= |names|
    requires Store.ListWebhooks(Receive(cfg, mac, route, req, dir, stamps, writable).dir, names, limit).Success?
    ensures exists record :: record in Store.ListWebhooks(Receive(cfg, mac, route, req, dir, stamps, writable).dir,
                                                          names, limit).value
                             && Get(record, "parsed_data") == Some(req.json.value)
                             && Get(record, "filename") == Some(JStr(Store.FileName(SourceOf(route, req.headers), stamps.file)))
  {
    var source := SourceOf(route, req.headers);
    var ip := ClientAddress.ClientIp(req.headers, req.peer);
    var name := Store.FileName(source, stamps.file);
    Store.SavedRecordIsListed(cfg, dir, req.json.value, source, Some(req.body), Some(req.headers), ip, JNull,
                              stamps.file, stamps.record, names, limit);
    Store.RecordReadsBack(req.json.value, source, Some(req.body), Some(req.headers), ip, JNull, stamps.record, name);
  }
}

=== FILE: client_address.dfy ===
/** `get_client_ip` of utils.py: the address a request is attributed to. */
module ClientAddress {
  import opened Results
  import opened Text
  import opened Http

  /** `value.split(',')[0].strip()`: the first entry of a forwarding chain. */
  function FirstHop(value: string): string
  {
    Strip(FirstField(value))
  }

  /** A non-empty `X-Forwarded-For` wins and yields its first hop; else a
      non-empty `X-Real-IP` is returned as is; else the peer address of the
      connection, which may be absent. */
  function ClientIp(headers: seq<Header>, peer: Option<string>): (r: Option<string>)
    ensures var fwd := HeaderValue(headers, "X-Forwarded-For");
      fwd.Some? && fwd.value != "" ==> r == Some(FirstHop(fwd.value))
    ensures var fwd := HeaderValue(headers, "X-Forwarded-For");
      var realIp := HeaderValue(headers, "X-Real-IP");
      !(fwd.Some? && fwd.value != "") && realIp.Some? && realIp.value != "" ==> r == realIp
    ensures var fwd := HeaderValue(headers, "X-Forwarded-For");
      var realIp := HeaderValue(headers, "X-Real-IP");
      !(fwd.Some? && fwd.value != "") && !(realIp.Some? && realIp.value != "") ==> r == peer
  {
    var fwd := HeaderValue(headers, "X-Forwarded-For");
    var realIp := HeaderValue(headers, "X-Real-IP");
    if fwd.Some? && fwd.value != "" then Some(FirstHop(fwd.value))
    else if realIp.Some? && realIp.value != "" then realIp
    else peer
  }

  /** The first hop holds no comma and neither starts nor ends with
      whitespace. */
  lemma FirstHopIsClean(value: string)
    ensures var hop := FirstHop(value);
      && ',' !in hop
      && (hop == [] || (!IsSpace(hop[0]) && !IsSpace(hop[|hop| - 1])))
  {
    var f := FirstField(value);
    var hop := FirstHop(value);
    forall k | 0 <= k < |hop| ensures hop[k] != ',' {
      assert hop[k] == f[LeadingSpace(f) + k];
    }
  }

  /** The forwarding chain is the first hop padded with whitespace and
      followed by nothing or by a comma: nothing but whitespace is dropped
      before the first comma. */
  lemma FirstHopPosition(value: string)
    ensures var hop := FirstHop(value);
      var f := FirstField(value);
      var i := LeadingSpace(f);
      && i + |hop| <= |f| <= |value|
      && hop == value[i..i + |hop|]
      && (forall k :: 0 <= k < i ==> IsSpace(value[k]))
      && (forall k :: i + |hop| <= k < |f| ==> IsSpace(value[k]))
      && (|f| == |value| || value[|f|] == ',')
  {
    var f := FirstField(value);
    var hop := FirstHop(value);
    var i := LeadingSpace(f);
    assert hop == value[i..i + |hop|] by {
      forall k | 0 <= k < |hop| ensures hop[k] == value[i + k] {
        assert hop[k] == f[i + k];
      }
    }
    forall k | 0 <= k < i ensures IsSpace(value[k]) {
      assert IsSpace(f[k]);
    }
    forall k | i + |hop| <= k < |f| ensures IsSpace(value[k]) {
      assert IsSpace(f[k]);
    }
  }
}

=== FILE: config.dfy ===
/** The configuration values the core reads.  They are loaded from the
    environment at start-up and never change afterwards, so the model takes
    them as one immutable value. */
module Settings {

  datatype Config = Config(
    webhookSecret: string,   // shared secret for request signatures
    dataDir: string,         // directory holding one JSON file per webhook
    forwardUrl: string,      // default target of forwarding
    enableForward: bool)     // forwarding switched on

  /** The values used when no environment variable overrides them. */
  const Default: Config := Config(
    "default-secret-key",
    "webhooks_data",
    "http://92.38.131.57:8000/webhook",
    true)

  /** The request timeout of a forward, in seconds. */
  const ForwardTimeoutSeconds: int := 10
}

=== FILE: forwarder.dfy ===
/** `forward_to_remote` of ai_analyzer.py: builds the outbound envelope and
    headers and maps the outcome of the HTTP POST to a status record.  The
    POST itself is not modelled; its outcome is an input. */
module Forwarder {
  import opened Results
  import opened JsonValues
  import Settings
  import Analyzer

  /** How the response body decoded as JSON, when the POST answered. */
  datatype BodyDecode = Decoded(value: Json) | Undecodable(message: string)

  /** What `requests.post` did: answered with a status code and body text,
      raised `Timeout` (which also covers a connect timeout), raised
      `ConnectionError`, or raised anything else (an invalid URL or header,
      say) with the given message. */
  datatype HttpOutcome =
    | Answered(statusCode: int, text: string, json: BodyDecode)
    | TimedOut
    | ConnectionFailed
    | Raised(message: string)

  /** The POST that would be issued. */
  datatype Outbound = Outbound(url: string, envelope: Json, headers: seq<Field>, timeoutSeconds: int)

  /** The dict `forward_to_remote` returns. */
  datatype ForwardResult =
    | Disabled
    | Delivered(response: Json, statusCode: int)
    | Rejected(statusCode: int, responseText: string)
    | Timeout
    | ConnectionError
    | Error(message: string)
  {
    function Status(): string
    {
      match this
      case Disabled => "disabled"
      case Delivered(_, _) => "success"
      case Rejected(_, _) => "failed"
      case Timeout => "timeout"
      case ConnectionError => "connection_error"
      case Error(_) => "error"
    }

    /** The returned dict: `status` first, then what the outcome carries. */
    function ToJson(): (j: Json)
      ensures j.JObj? && |j.fields| >= 2 && j.fields[0] == Field("status", JStr(Status()))
      ensures Delivered? ==>
                Get(j.fields, "response") == Some(response) && Get(j.fields, "status_code") == Some(JNum(statusCode))
      ensures Rejected? ==>
                Get(j.fields, "status_code") == Some(JNum(statusCode))
                && Get(j.fields, "response") == Some(JStr(responseText))
      ensures Disabled? ==> Get(j.fields, "message") == Some(JStr(DisabledMessage))
      ensures Timeout? ==> Get(j.fields, "message") == Some(JStr(TimeoutMessage))
      ensures ConnectionError? ==> Get(j.fields, "message") == Some(JStr(ConnectionMessage))
      ensures Error? ==> Get(j.fields, "message") == Some(JStr(message))
    {
      match this
      case Disabled => JObj([Field("status", JStr("disabled")), Field("message", JStr(DisabledMessage))])
      case Delivered(r, c) =>
        var fields := [Field("status", JStr("success")), Field("response", r), Field("status_code", JNum(c))];
        GetFirst(fields, "status_code", 2);
        JObj(fields)
      case Rejected(c, t) =>
        var fields := [Field("status", JStr("failed")), Field("status_code", JNum(c)), Field("response", JStr(t))];
        GetFirst(fields, "response", 2);
        JObj(fields)
      case Timeout => JObj([Field("status", JStr("timeout")), Field("message", JStr(TimeoutMessage))])
      case ConnectionError => JObj([Field("status", JStr("connection_error")), Field("message", JStr(ConnectionMessage))])
      case Error(m) => JObj([Field("status", JStr("error")), Field("message", JStr(m))])
    }
  }

  const DisabledMessage: string := "转发功能已禁用"
  const TimeoutMessage: string := "请求超时"
  const ConnectionMessage: string := "无法连接到远程服务器"

  /** The result together with the request that was issued, if any. */
  datatype ForwardReport = ForwardReport(result: ForwardResult, sent: Option<Outbound>)

  const EnvelopeKeys: seq<string> :=
    ["original_data", "original_source", "original_timestamp", "ai_analysis", "processed_by", "client_ip"]

  /** The JSON body posted downstream: a dict with the six keys of
      `forward_data`, in that order. */
  function Envelope(webhook: seq<Field>, analysis: Json): (e: Json)
    ensures e.JObj? && Keys(e.fields) == EnvelopeKeys
  {
    JObj([
      Field("original_data", Get(webhook, "parsed_data").GetOr(EmptyObj)),
      Field("original_source", Get(webhook, "source").GetOr(JStr("unknown"))),
      Field("original_timestamp", Get(webhook, "timestamp").GetOr(JNull)),
      Field("ai_analysis", analysis),
      Field("processed_by", JStr("webhook-analyzer")),
      Field("client_ip", Get(webhook, "client_ip").GetOr(JNull))])
  }

  const HeaderKeys: seq<string> := ["Content-Type", "X-Webhook-Source", "X-Analysis-Importance"]

  /** The request headers: content type, the source tag prefixed with
      `analyzed-`, and the analysis importance (`unknown` when missing). */
  function Headers(webhook: seq<Field>, analysis: seq<Field>): (h: seq<Field>)
    ensures Keys(h) == HeaderKeys
  {
    [ Field("Content-Type", JStr("application/json")),
      Field("X-Webhook-Source", JStr("analyzed-" + Str(Get(webhook, "source").GetOr(JStr("unknown"))))),
      Field("X-Analysis-Importance", Get(analysis, "importance").GetOr(JStr("unknown"))) ]
  }

  /** Maps what the POST did to the status record. */
  function Classify(outcome: HttpOutcome): (r: ForwardResult)
    ensures r.Status() == "success" <==> outcome.Answered? && outcome.statusCode == 200
                                         && (outcome.text == "" || outcome.json.Decoded?)
    ensures r.Status() == "failed" <==> outcome.Answered? && outcome.statusCode != 200
    ensures r.Rejected? ==> r.statusCode == outcome.statusCode && r.responseText == outcome.text
    ensures r.Status() == "timeout" <==> outcome.TimedOut?
    ensures r.Status() == "connection_error" <==> outcome.ConnectionFailed?
    ensures r.Status() != "disabled"
    ensures r.Delivered? ==>
              && r.statusCode == 200
              && r.response == (if outcome.text == "" then EmptyObj else outcome.json.value)
    ensures outcome.Raised? ==> r == Error(outcome.message)
    ensures outcome.Answered? && outcome.statusCode == 200 && outcome.text != "" && outcome.json.Undecodable? ==>
              r == Error(outcome.json.message)
  {
    match outcome
    case Answered(code, text, json) =>
      if code == 200 then
        if text == "" then Delivered(EmptyObj, code)
        else
          match json
          case Decoded(v) => Delivered(v, code)
          case Undecodable(m) => Error(m)
      else Rejected(code, text)
    case TimedOut => Timeout
    case ConnectionFailed => ConnectionError
    case Raised(m) => Error(m)
  }

  /** `forward_to_remote(webhook_data, analysis_result, target_url)`.
      Disabled forwarding returns at once and issues nothing; otherwise the
      target defaults to the configured URL, and a `webhook_data` or
      `analysis_result` that is not a dict makes `.get` raise, which is
      reported as an error without a request. */
  function Forward(cfg: Settings.Config, webhookData: Json, analysisResult: Json,
                   targetUrl: Option<string>, outcome: HttpOutcome): (r: ForwardReport)
    ensures !cfg.enableForward <==> r.result == Disabled
    ensures r.sent.Some? <==> cfg.enableForward && webhookData.JObj? && analysisResult.JObj?
    ensures r.sent.Some? ==>
              && r.sent.value.url == targetUrl.GetOr(cfg.forwardUrl)
              && r.sent.value.timeoutSeconds == Settings.ForwardTimeoutSeconds
              && r.result == Classify(outcome)
    ensures cfg.enableForward && !webhookData.JObj? ==> r.result == Error(NoGetMessage(webhookData))
    ensures (cfg.enableForward && webhookData.JObj? && !analysisResult.JObj?)
              ==> r.result == Error(NoGetMessage(analysisResult))
  {
    if !cfg.enableForward then ForwardReport(Disabled, None)
    else
      var url := targetUrl.GetOr(cfg.forwardUrl);
      match webhookData
      case JObj(webhook) =>
        (match analysisResult
         case JObj(analysis) =>
           var request := Outbound(url, Envelope(webhook, analysisResult), Headers(webhook, analysis),
                                   Settings.ForwardTimeoutSeconds);
           ForwardReport(Classify(outcome), Some(request))
         case _ => ForwardReport(Error(NoGetMessage(analysisResult)), None))
      case _ => ForwardReport(Error(NoGetMessage(webhookData)), None)
  }

  /** What goes out: the envelope and headers built from the two dicts,
      with the analysis carried unchanged and the source tagged `analyzed-`,
      and the analysis importance announced, `unknown` when the analysis
      has none. */
  lemma OutboundShape(cfg: Settings.Config, webhook: seq<Field>, analysis: seq<Field>,
                      targetUrl: Option<string>, outcome: HttpOutcome)
    requires cfg.enableForward
    ensures var r := Forward(cfg, JObj(webhook), JObj(analysis), targetUrl, outcome);
      && r.sent.Some?
      && r.sent.value.envelope == Envelope(webhook, JObj(analysis))
      && r.sent.value.headers == Headers(webhook, analysis)
      && Get(r.sent.value.envelope.fields, "processed_by") == Some(JStr("webhook-analyzer"))
      && Get(r.sent.value.envelope.fields, "ai_analysis") == Some(JObj(analysis))
      && Get(r.sent.value.headers, "X-Webhook-Source")
           == Some(JStr("analyzed-" + Str(Get(webhook, "source").GetOr(JStr("unknown")))))
      && Get(r.sent.value.headers, "X-Analysis-Importance")
           == Some(Get(analysis, "importance").GetOr(JStr("unknown")))
  {
    var url := targetUrl.GetOr(cfg.forwardUrl);
    var request := Outbound(url, Envelope(webhook, JObj(analysis)), Headers(webhook, analysis),
                            Settings.ForwardTimeoutSeconds);
    assert Forward(cfg, JObj(webhook), JObj(analysis), targetUrl, outcome).sent == Some(request);
    var e := Envelope(webhook, JObj(analysis)).fields;
    assert Get(e, "processed_by") == Some(JStr("webhook-analyzer")) && Get(e, "ai_analysis") == Some(JObj(analysis)) by {
      EnvelopeLookups(webhook, JObj(analysis));
    }
    var h := Headers(webhook, analysis);
    assert && Get(h, "X-Webhook-Source") == Some(JStr("analyzed-" + Str(Get(webhook, "source").GetOr(JStr("unknown")))))
           && Get(h, "X-Analysis-Importance") == Some(Get(analysis, "importance").GetOr(JStr("unknown"))) by {
      HeaderLookups(webhook, analysis);
    }
  }

  /** The posted dict answers each key with the webhook's value or Python's
      default: `parsed_data` or `{}`, `source` or `'unknown'`, `timestamp`
      or `None`, the analysis unchanged, the fixed `processed_by`, and
      `client_ip` or `None`. */
  lemma EnvelopeLookups(webhook: seq<Field>, analysis: Json)
    ensures var e := Envelope(webhook, analysis).fields;
      && Get(e, "original_data") == Some(Get(webhook, "parsed_data").GetOr(EmptyObj))
      && Get(e, "original_source") == Some(Get(webhook, "source").GetOr(JStr("unknown")))
      && Get(e, "original_timestamp") == Some(Get(webhook, "timestamp").GetOr(JNull))
      && Get(e, "ai_analysis") == Some(analysis)
      && Get(e, "processed_by") == Some(JStr("webhook-analyzer"))
      && Get(e, "client_ip") == Some(Get(webhook, "client_ip").GetOr(JNull))
  {
    var e := Envelope(webhook, analysis).fields;
    assert Keys(e) == EnvelopeKeys;
    EnvelopeLookupAt(e, 0);
    EnvelopeLookupAt(e, 1);
    EnvelopeLookupAt(e, 2);
    EnvelopeLookupAt(e, 3);
    EnvelopeLookupAt(e, 4);
    EnvelopeLookupAt(e, 5);
  }

  lemma EnvelopeLookupAt(e: seq<Field>, i: int)
    requires Keys(e) == EnvelopeKeys && 0 <= i < 6
    ensures Get(e, EnvelopeKeys[i]) == Some(e[i].value)
  {
    assert forall j :: 0 <= j < 6 ==> e[j].key == EnvelopeKeys[j];
    GetByLength(e, EnvelopeKeys[i], i);
  }

  /** The request headers announce JSON, the source tagged `analyzed-`
      (`unknown` when the webhook has none), and the analysis importance
      (`unknown` when the analysis has none). */
  lemma HeaderLookups(webhook: seq<Field>, analysis: seq<Field>)
    ensures Get(Headers(webhook, analysis), "Content-Type") == Some(JStr("application/json"))
    ensures Get(Headers(webhook, analysis), "X-Webhook-Source")
              == Some(JStr("analyzed-" + Str(Get(webhook, "source").GetOr(JStr("unknown")))))
    ensures Get(Headers(webhook, analysis), "X-Analysis-Importance")
              == Some(Get(analysis, "importance").GetOr(JStr("unknown")))
  {
    var h := Headers(webhook, analysis);
    GetByLength(h, "Content-Type", 0);
    GetByLength(h, "X-Webhook-Source", 1);
    GetByLength(h, "X-Analysis-Importance", 2);
  }

  /** Forwarding the rule-based analysis announces its importance in the
      `X-Analysis-Importance` header. */
  lemma ImportanceHeaderOfAnalysis(cfg: Settings.Config, webhook: seq<Field>, a: Analyzer.Analysis,
                                   targetUrl: Option<string>, outcome: HttpOutcome)
    requires cfg.enableForward
    ensures var r := Forward(cfg, JObj(webhook), a.ToJson(), targetUrl, outcome);
      && r.sent.Some?
      && Get(r.sent.value.headers, "X-Analysis-Importance") == Some(JStr(a.importance.Name()))
  {
    Analyzer.AnalysisJsonFields(a);
    OutboundShape(cfg, webhook, a.ToJson().fields, targetUrl, outcome);
  }
}

=== FILE: http.dfy ===
/** The parts of an inbound request the core reads: its headers and its
    body.  Header names are matched and shown the way the framework's
    header mapping does: through their WSGI environ key. */
module Http {
  import opened Results
  import opened JsonValues
  import opened Text

  datatype Header = Header(name: string, value: string)

  /** The raw request body and, when the bytes are valid UTF-8, their
      decoding.  UTF-8 decoding is not modelled; it is part of the input. */
  datatype Body = Body(bytes: seq<byte>, text: Option<string>)

  /** A character of the WSGI environ key of a header name: upper case,
      with `-` written `_`. */
  function KeyChar(c: char): char
  {
    if c == '-' then '_' else UpperChar(c)
  }

  /** The environ key `HTTP_<KEY>` a header is stored under, without its
      prefix.  Looking a header up converts the asked name the same way. */
  function EnvironKey(name: string): (k: string)
    ensures |k| == |name|
    ensures forall i :: 0 <= i < |name| ==> k[i] == KeyChar(name[i])
  {
    seq(|name|, i requires 0 <= i < |name| => KeyChar(name[i]))
  }

  /** Two names denote the same header when their environ keys agree: ASCII
      case is ignored, and `-` and `_` are the same character. */
  predicate SameName(a: string, b: string)
  {
    EnvironKey(a) == EnvironKey(b)
  }

  /** How the framework shows a header name when iterating the headers:
      the environ key with `_` written `-`, title-cased, so that a letter is
      upper case exactly when it does not follow another letter. */
  function DisplayName(name: string): (r: string)
    ensures |r| == |name|
    ensures forall i :: 0 <= i < |name| ==>
              var d := if KeyChar(name[i]) == '_' then '-' else KeyChar(name[i]);
              r[i] == if i > 0 && IsAsciiLetter(name[i - 1]) then LowerChar(d) else UpperChar(d)
  {
    var k := EnvironKey(name);
    seq(|name|, i requires 0 <= i < |name| =>
      var d := if k[i] == '_' then '-' else k[i];
      if i > 0 && IsAsciiLetter(name[i - 1]) then LowerChar(d) else UpperChar(d))
  }

  /** The shown name has the environ key of the name it shows. */
  lemma KeyOfDisplayName(name: string)
    ensures EnvironKey(DisplayName(name)) == EnvironKey(name)
  {
    var shown := DisplayName(name);
    forall i | 0 <= i < |name| ensures KeyChar(shown[i]) == KeyChar(name[i]) {
      KeyOfShownChar(name[i], i > 0 && IsAsciiLetter(name[i - 1]));
    }
  }

  lemma KeyOfShownChar(c: char, afterLetter: bool)
    ensures var d := if KeyChar(c) == '_' then '-' else KeyChar(c);
      KeyChar(if afterLetter then LowerChar(d) else UpperChar(d)) == KeyChar(c)
  {
  }

  /** Two names are shown alike exactly when they denote the same header,
      so the stored fields of two headers share a name exactly when they
      are one header sent twice. */
  lemma DisplayNameIffSameName(a: string, b: string)
    ensures DisplayName(a) == DisplayName(b) <==> SameName(a, b)
  {
    KeyOfDisplayName(a);
    KeyOfDisplayName(b);
  }

  /** Some header of the request has the given name. */
  predicate Names(headers: seq<Header>, name: string)
  {
    exists i :: 0 <= i < |headers| && SameName(headers[i].name, name)
  }

  /** The values of the headers with the given name, in request order. */
  function Values(headers: seq<Header>, name: string): (vs: seq<string>)
    ensures |vs| <= |headers|
    ensures vs == [] <==> !Names(headers, name)
  {
    if headers == [] then []
    else
      var rest := Values(headers[1..], name);
      assert Names(headers[1..], name) ==> Names(headers, name) by {
        if Names(headers[1..], name) {
          var i :| 0 <= i < |headers| - 1 && SameName(headers[1..][i].name, name);
          assert headers[i + 1] == headers[1..][i];
        }
      }
      assert Names(headers, name) && !SameName(headers[0].name, name) ==> Names(headers[1..], name) by {
        if Names(headers, name) && !SameName(headers[0].name, name) {
          var i :| 0 <= i < |headers| && SameName(headers[i].name, name);
          assert headers[1..][i - 1] == headers[i];
        }
      }
      (if SameName(headers[0].name, name) then [headers[0].value] else []) + rest
  }

  /** Values joined by commas. */
  function CommaJoin(vs: seq<string>): (s: string)
    requires vs != []
    ensures vs[0] <= s
    ensures |vs| == 1 ==> s == vs[0]
    ensures |vs| >= 2 ==> |s| > |vs[0]| && s[|vs[0]|] == ','
  {
    if |vs| == 1 then vs[0] else vs[0] + "," + CommaJoin(vs[1..])
  }

  /** `request.headers.get(name)`: the value stored under the name's environ
      key.  The WSGI server stores a header sent more than once as its
      values joined by `,`, in request order. */
  function HeaderValue(headers: seq<Header>, name: string): (r: Option<string>)
    ensures r.Some? <==> Names(headers, name)
  {
    var vs := Values(headers, name);
    if vs == [] then None else Some(CommaJoin(vs))
  }

  /** Two names with the same environ key read the same values. */
  lemma {:induction false} ValuesOfSameName(headers: seq<Header>, a: string, b: string)
    requires SameName(a, b)
    ensures Values(headers, a) == Values(headers, b)
  {
    if headers != [] {
      ValuesOfSameName(headers[1..], a, b);
    }
  }

  /** The values from the first header with the name onwards. */
  lemma {:induction false} ValuesFromFirst(headers: seq<Header>, name: string, i: int)
    requires 0 <= i < |headers| && SameName(headers[i].name, name)
    requires forall k :: 0 <= k < i ==> !SameName(headers[k].name, name)
    ensures Values(headers, name) == [headers[i].value] + Values(headers[i + 1..], name)
  {
    if i > 0 {
      ValuesFromFirst(headers[1..], name, i - 1);
      assert headers[1..][i..] == headers[i + 1..];
    }
  }

  /** A header that no other header shares a name with is read as sent. */
  lemma SoleHeaderValue(headers: seq<Header>, name: string, i: int)
    requires 0 <= i < |headers| && SameName(headers[i].name, name)
    requires forall k :: 0 <= k < |headers| && k != i ==> !SameName(headers[k].name, name)
    ensures HeaderValue(headers, name) == Some(headers[i].value)
  {
    ValuesFromFirst(headers, name, i);
    var rest := headers[i + 1..];
    assert !Names(rest, name) by {
      forall k | 0 <= k < |rest| ensures !SameName(rest[k].name, name) {
        assert rest[k] == headers[i + 1 + k];
      }
    }
  }

  /** A header sent twice or more is read as the first value, a comma, and
      the rest: the value of the first one alone is never what is read. */
  lemma RepeatedHeaderValue(headers: seq<Header>, name: string, i: int, j: int)
    requires 0 <= i < j < |headers| && SameName(headers[i].name, name) && SameName(headers[j].name, name)
    requires forall k :: 0 <= k < i ==> !SameName(headers[k].name, name)
    ensures HeaderValue(headers, name).Some? && HeaderValue(headers[i + 1..], name).Some?
    ensures HeaderValue(headers, name).value
            == headers[i].value + "," + HeaderValue(headers[i + 1..], name).value
    ensures var v := HeaderValue(headers, name).value;
      |v| > |headers[i].value| && v[..|headers[i].value| + 1] == headers[i].value + ","
  {
    ValuesFromFirst(headers, name, i);
    assert headers[i + 1..][j - i - 1] == headers[j];
  }

  /** A header sent twice is read with a comma in it. */
  lemma RepeatedHeaderHasComma(headers: seq<Header>, name: string, i: int, j: int)
    requires 0 <= i < j < |headers| && SameName(headers[i].name, name) && SameName(headers[j].name, name)
    ensures HeaderValue(headers, name).Some? && ',' in HeaderValue(headers, name).value
  {
    TwoValues(headers, name, i, j);
    var vs := Values(headers, name);
    assert CommaJoin(vs)[|vs[0]|] == ',';
  }

  lemma {:induction false} TwoValues(headers: seq<Header>, name: string, i: int, j: int)
    requires 0 <= i < j < |headers| && SameName(headers[i].name, name) && SameName(headers[j].name, name)
    ensures |Values(headers, name)| >= 2
  {
    if SameName(headers[0].name, name) {
      assert SameName(headers[1..][j - 1].name, name);
    } else {
      TwoValues(headers[1..], name, i - 1, j - 1);
    }
  }

  /** `X_Webhook_Source` and `x-webhook-source` denote the same header. */
  lemma SourceHeaderSpellings()
    ensures SameName("X_Webhook_Source", "x-webhook-source")
  {
  }

  /** The environ keys of the headers, in request order. */
  function HeaderKeys(headers: seq<Header>): (ks: seq<string>)
    ensures |ks| == |headers|
    ensures forall i :: 0 <= i < |headers| ==> ks[i] == EnvironKey(headers[i].name)
  {
    seq(|headers|, i requires 0 <= i < |headers| => EnvironKey(headers[i].name))
  }

  /** Each key once, at the place it first occurs: the environ keeps a
      repeated header where it was first stored. */
  function Distinct(ks: seq<string>): (us: seq<string>)
    ensures |us| <= |ks|
    ensures forall k :: k in us <==> k in ks
    ensures forall a, b :: 0 <= a < b < |us| ==> us[a] != us[b]
  {
    if ks == [] then []
    else
      var us := Distinct(ks[..|ks| - 1]);
      var last := ks[|ks| - 1];
      assert ks == ks[..|ks| - 1] + [last];
      if last in us then us else us + [last]
  }

  /** `dict(headers)`: one field per distinct header, in the order each was
      first sent, under the name the framework shows for its environ key and
      holding the value a lookup reads. */
  function HeadersJson(headers: seq<Header>): (j: Json)
    ensures j.JObj? && |j.fields| <= |headers|
    ensures j.fields == [] <==> headers == []
    ensures forall k :: 0 <= k < |j.fields| ==> j.fields[k].value.JStr?
  {
    var us := Distinct(HeaderKeys(headers));
    assert headers != [] ==> HeaderKeys(headers)[0] in us;
    JObj(seq(|us|, k requires 0 <= k < |us| =>
      Field(DisplayName(us[k]), JStr(HeaderValue(headers, us[k]).GetOr("")))))
  }

  /** The field a header is stored as: its shown name and what a lookup of
      it reads. */
  function StoredField(headers: seq<Header>, name: string): Field
    requires Names(headers, name)
  {
    Field(DisplayName(name), JStr(HeaderValue(headers, name).value))
  }

  /** An environ key is its own environ key and is shown like the name it
      comes from. */
  lemma KeyOfKey(name: string)
    ensures EnvironKey(EnvironKey(name)) == EnvironKey(name)
    ensures SameName(EnvironKey(name), name)
    ensures DisplayName(EnvironKey(name)) == DisplayName(name)
  {
    var k := EnvironKey(name);
    assert EnvironKey(k) == k by {
      forall i | 0 <= i < |k| ensures KeyChar(k[i]) == k[i] {
        assert k[i] == KeyChar(name[i]);
      }
    }
    DisplayNameIffSameName(k, name);
  }

  /** Each distinct key comes from some header. */
  lemma KeySource(headers: seq<Header>, k: int) returns (i: int)
    requires 0 <= k < |Distinct(HeaderKeys(headers))|
    ensures 0 <= i < |headers| && Distinct(HeaderKeys(headers))[k] == EnvironKey(headers[i].name)
  {
    var ks := HeaderKeys(headers);
    var us := Distinct(ks);
    assert us[k] in us;
    i :| 0 <= i < |ks| && ks[i] == us[k];
  }

  /** No two stored fields share a name. */
  lemma HeadersJsonKeysDistinct(headers: seq<Header>)
    ensures var fields := HeadersJson(headers).fields;
      forall k, l :: 0 <= k < l < |fields| ==> fields[k].key != fields[l].key
  {
    var us := Distinct(HeaderKeys(headers));
    var fields := HeadersJson(headers).fields;
    forall k, l | 0 <= k < l < |fields| ensures fields[k].key != fields[l].key {
      var i := KeySource(headers, k);
      var j := KeySource(headers, l);
      KeyOfKey(headers[i].name);
      KeyOfKey(headers[j].name);
      DisplayNameIffSameName(us[k], us[l]);
    }
  }

  /** Every header of the request is stored, with the value a lookup of it
      reads. */
  lemma HeaderStored(headers: seq<Header>, i: int)
    requires 0 <= i < |headers|
    ensures Names(headers, headers[i].name)
    ensures StoredField(headers, headers[i].name) in HeadersJson(headers).fields
  {
    var ks := HeaderKeys(headers);
    var us := Distinct(ks);
    assert SameName(headers[i].name, headers[i].name);
    assert ks[i] in us;
    var k :| 0 <= k < |us| && us[k] == ks[i];
    KeyStored(headers, headers[i].name);
    assert HeadersJson(headers).fields[k] == StoredField(headers, headers[i].name);
  }

  /** Every stored field stores some header of the request. */
  lemma FieldStoresHeader(headers: seq<Header>, k: int) returns (i: int)
    requires 0 <= k < |HeadersJson(headers).fields|
    ensures 0 <= i < |headers| && Names(headers, headers[i].name)
    ensures HeadersJson(headers).fields[k] == StoredField(headers, headers[i].name)
  {
    i := KeySource(headers, k);
    assert SameName(headers[i].name, headers[i].name);
    KeyStored(headers, headers[i].name);
  }

  /** When no header is sent twice, every header is stored as sent, in
      request order. */
  lemma HeadersJsonOfDistinct(headers: seq<Header>)
    requires forall i, k :: 0 <= i < k < |headers| ==> !SameName(headers[i].name, headers[k].name)
    ensures var fields := HeadersJson(headers).fields;
      && |fields| == |headers|
      && forall i :: 0 <= i < |headers| ==> fields[i] == Field(DisplayName(headers[i].name), JStr(headers[i].value))
  {
    var ks := HeaderKeys(headers);
    DistinctKept(ks);
    forall i | 0 <= i < |headers|
      ensures HeadersJson(headers).fields[i] == Field(DisplayName(headers[i].name), JStr(headers[i].value))
    {
      SoleHeaderValue(headers, ks[i], i) by {
        KeyOfKey(headers[i].name);
      }
      KeyOfKey(headers[i].name);
    }
  }

  /** Keys that are already distinct are kept as they are. */
  lemma {:induction false} DistinctKept(ks: seq<string>)
    requires forall a, b :: 0 <= a < b < |ks| ==> ks[a] != ks[b]
    ensures Distinct(ks) == ks
  {
    if ks != [] {
      var init := ks[..|ks| - 1];
      DistinctKept(init);
      assert ks[|ks| - 1] !in init;
      assert ks == init + [ks[|ks| - 1]];
    }
  }

  /** A header is stored under its environ key exactly as under its name. */
  lemma KeyStored(headers: seq<Header>, name: string)
    requires Names(headers, name)
    ensures Names(headers, EnvironKey(name))
    ensures StoredField(headers, EnvironKey(name)) == StoredField(headers, name)
  {
    KeyOfKey(name);
    ValuesOfSameName(headers, EnvironKey(name), name);
  }
}

=== FILE: json.dfy ===
/** JSON values as the Python side sees them after decoding: `None`, `bool`,
    `int`, `str`, `list` and `dict`.  A dict is an ordered list of fields,
    because Python dicts keep insertion order and that order shows in `str()`. */
module JsonValues {
  import opened Results

  datatype Json =
    | JNull
    | JBool(b: bool)
    | JNum(n: int)
    | JStr(s: string)
    | JArr(items: seq<Json>)
    | JObj(fields: seq<Field>)

  datatype Field = Field(key: string, value: Json)

  /** An empty dict, `{}`. */
  const EmptyObj: Json := JObj([])

  predicate HasKey(fields: seq<Field>, key: string)
  {
    exists i :: 0 <= i < |fields| && fields[i].key == key
  }

  /** `d.get(key)`: the value of the first field named `key`.  A decoded
      dict never repeats a key, so the first field is the only one. */
  function Get(fields: seq<Field>, key: string): (r: Option<Json>)
    ensures r.Some? <==> HasKey(fields, key)
    ensures r.Some? ==> Field(key, r.value) in fields
  {
    if fields == [] then None
    else if fields[0].key == key then Some(fields[0].value)
    else Get(fields[1..], key)
  }

  /** The first field with a given key is the one `Get` answers with. */
  lemma {:induction false} GetFirst(fields: seq<Field>, key: string, i: int)
    requires 0 <= i < |fields| && fields[i].key == key
    requires forall j :: 0 <= j < i ==> fields[j].key != key
    ensures Get(fields, key) == Some(fields[i].value)
  {
    if i > 0 {
      GetFirst(fields[1..], key, i - 1);
    }
  }

  /** `GetFirst` for keys told apart by their lengths.  The dict literals of
      the model use keys of different lengths, and the solver compares two
      lengths at once where it compares two literal strings character by
      character. */
  lemma GetByLength(fields: seq<Field>, key: string, i: int)
    requires 0 <= i < |fields| && fields[i].key == key
    requires forall j :: 0 <= j < i ==> |fields[j].key| != |key|
    ensures Get(fields, key) == Some(fields[i].value)
  {
    GetFirst(fields, key, i);
  }

  /** The keys of a JSON object, in order. */
  function Keys(fields: seq<Field>): (ks: seq<string>)
    ensures |ks| == |fields|
    ensures forall i :: 0 <= i < |fields| ==> ks[i] == fields[i].key
  {
    seq(|fields|, i requires 0 <= i < |fields| => fields[i].key)
  }

  /** A key whose length no field key has is absent. */
  lemma NoKeyOfOtherLength(fields: seq<Field>, key: string)
    requires forall i :: 0 <= i < |fields| ==> |fields[i].key| != |key|
    ensures Get(fields, key) == None
  {
  }

  /** Looking a key up in a concatenation looks in the first part first. */
  lemma {:induction false} GetAppend(a: seq<Field>, b: seq<Field>, key: string)
    ensures Get(a + b, key) == if HasKey(a, key) then Get(a, key) else Get(b, key)
  {
    if a != [] {
      assert (a + b)[1..] == a[1..] + b;
      GetAppend(a[1..], b, key);
      if !HasKey(a[1..], key) && a[0].key != key {
        assert !HasKey(a, key) by {
          forall i | 0 <= i < |a| ensures a[i].key != key {
            if i > 0 { assert a[i] == a[1..][i - 1]; }
          }
        }
      }
    } else {
      assert a + b == b;
    }
  }

  /** `d[key] = value`: overwrite the first field named `key` in place, or
      append a new field at the end. */
  function Set(fields: seq<Field>, key: string, value: Json): (r: seq<Field>)
    ensures Get(r, key) == Some(value)
    ensures forall k :: k != key ==> Get(r, k) == Get(fields, k)
    ensures |r| == if HasKey(fields, key) then |fields| else |fields| + 1
  {
    if fields == [] then [Field(key, value)]
    else if fields[0].key == key then [Field(key, value)] + fields[1..]
    else [fields[0]] + Set(fields[1..], key, value)
  }

  /** Python truthiness of a decoded value. */
  predicate Truthy(j: Json)
  {
    match j
    case JNull => false
    case JBool(b) => b
    case JNum(n) => n != 0
    case JStr(s) => s != ""
    case JArr(items) => items != []
    case JObj(fields) => fields != []
  }

  /** Python's name for the type of a decoded value, as it appears in an
      `AttributeError` message. */
  function TypeName(j: Json): string
  {
    match j
    case JNull => "NoneType"
    case JBool(_) => "bool"
    case JNum(_) => "int"
    case JStr(_) => "str"
    case JArr(_) => "list"
    case JObj(_) => "dict"
  }

  /** The message of the `AttributeError` raised by `value.get(...)` when
      `value` is not a dict. */
  function NoGetMessage(j: Json): string
  {
    "'" + TypeName(j) + "' object has no attribute 'get'"
  }

  /** `x.get(key, default)` on an arbitrary value: a dict answers, anything
      else raises `AttributeError`. */
  function GetOrDefault(x: Json, key: string, default: Json): (r: Result<Json, string>)
    ensures x.JObj? <==> r.Success?
    ensures x.JObj? && HasKey(x.fields, key) ==> r == Success(Get(x.fields, key).value)
    ensures x.JObj? && !HasKey(x.fields, key) ==> r == Success(default)
    ensures !x.JObj? ==> r == Failure(NoGetMessage(x))
  {
    match x
    case JObj(fields) => Success(Get(fields, key).GetOr(default))
    case _ => Failure(NoGetMessage(x))
  }

  // ---------------------------------------------------------------------
  // str() and repr()
  // ---------------------------------------------------------------------

  /** Python `str(x)` of a decoded value. */
  function Str(j: Json): (r: string)
    ensures j.JStr? ==> r == j.s
  {
    if j.JStr? then j.s else Repr(j)
  }

  /** Python `repr(x)` of a decoded value (also what `str` of a list or dict
      shows for the elements). */
  function Repr(j: Json): (r: string)
    ensures |r| >= 2 || j.JNum?
    ensures j.JNull? ==> r == "None"
    ensures j.JBool? ==> r == if j.b then "True" else "False"
    ensures j.JNum? ==> r == Decimal(j.n)
    ensures j.JStr? ==> r[0] in "'\"" && r[|r| - 1] == r[0]
    ensures j.JArr? ==> r[0] == '[' && r[|r| - 1] == ']'
    ensures j.JObj? ==> r[0] == '{' && r[|r| - 1] == '}'
  {
    match j
    case JNull => "None"
    case JBool(b) => if b then "True" else "False"
    case JNum(n) => Decimal(n)
    case JStr(s) => QuoteRepr(s)
    case JArr(items) =>
      "[" + Join(seq(|items|, i requires 0 <= i < |items| => Repr(items[i]))) + "]"
    case JObj(fields) =>
      "{" + Join(seq(|fields|, i requires 0 <= i < |fields| =>
                       QuoteRepr(fields[i].key) + ": " + Repr(fields[i].value))) + "}"
  }

  /** `repr(d)` of a dict shows each value's repr as one piece of it. */
  lemma ReprShowsValue(fields: seq<Field>, i: int) returns (pre: string, post: string)
    requires 0 <= i < |fields|
    ensures Repr(JObj(fields)) == pre + Repr(fields[i].value) + post
  {
    var parts := seq(|fields|, k requires 0 <= k < |fields| =>
                       QuoteRepr(fields[k].key) + ": " + Repr(fields[k].value));
    var whole := Repr(JObj(fields));
    assert whole == "{" + Join(parts) + "}" by {
      assert Repr(JObj(fields)) == "{" + Join(parts) + "}";
    }
    var a, b := JoinShowsPart(parts, i);
    var key := QuoteRepr(fields[i].key) + ": ";
    var value := Repr(fields[i].value);
    assert parts[i] == key + value;
    pre := "{" + a + key;
    post := b + "}";
    Regroup("{", a, key, value, b, "}");
  }

  lemma Regroup(x: string, a: string, k: string, v: string, b: string, y: string)
    ensures x + (a + (k + v) + b) + y == (x + a + k) + v + (b + y)
  {
  }

  /** `str()` of a dict shows a plain string value as it is, quoted. */
  lemma PlainValueShown(fields: seq<Field>, i: int, s: string) returns (pre: string, post: string)
    requires 0 <= i < |fields| && fields[i].value == JStr(s) && Plain(s)
    ensures Str(JObj(fields)) == pre + s + post
  {
    var a, b := ReprShowsValue(fields, i);
    var quoted := Repr(JStr(s));
    assert quoted == "'" + s + "'" by {
      PlainQuoteRepr(s);
    }
    pre, post := a + "'", "'" + b;
    Regroup(a, [], "'", s, "'", b);
    assert [] + ("'" + s) + "'" == quoted;
    assert a + [] + "'" == pre;
  }

  /** Each part is one piece of the joined text. */
  lemma {:induction false} JoinShowsPart(parts: seq<string>, i: int) returns (pre: string, post: string)
    requires 0 <= i < |parts|
    ensures Join(parts) == pre + parts[i] + post
    decreases |parts|
  {
    if |parts| == 1 {
      pre, post := "", "";
    } else if i == 0 {
      pre, post := "", ", " + Join(parts[1..]);
    } else {
      var a, b := JoinShowsPart(parts[1..], i - 1);
      pre, post := parts[0] + ", " + a, b;
    }
  }

  /** Text whose repr needs no escape: printable ASCII without quotes or
      backslashes. */
  predicate Plain(s: string)
  {
    forall i :: 0 <= i < |s| ==> ' ' <= s[i] < '\U{7F}' && s[i] !in "\\'\""
  }

  /** The repr of plain text is the text between single quotes. */
  lemma PlainQuoteRepr(s: string)
    requires Plain(s)
    ensures QuoteRepr(s) == "'" + s + "'"
  {
    PlainEscapeAll(s);
  }

  lemma {:induction false} PlainEscapeAll(s: string)
    requires Plain(s)
    ensures EscapeAll(s, '\'') == s
  {
    if s != [] {
      PlainEscapeAll(s[1..]);
      assert s == [s[0]] + s[1..];
    }
  }

  /** `", ".join(parts)`. */
  function Join(parts: seq<string>): string
  {
    if parts == [] then ""
    else if |parts| == 1 then parts[0]
    else parts[0] + ", " + Join(parts[1..])
  }

  /** Python's repr of a string: single quotes unless the text holds a single
      quote and no double quote; backslash, the chosen quote and ASCII control
      characters are escaped. */
  function QuoteRepr(s: string): string
  {
    var q := if '\'' in s && '"' !in s then '"' else '\'';
    [q] + EscapeAll(s, q) + [q]
  }

  function EscapeAll(s: string, q: char): string
  {
    if s == [] then "" else Escape(s[0], q) + EscapeAll(s[1..], q)
  }

  function Escape(c: char, q: char): string
  {
    if c == '\\' then "\\\\"
    else if c == q then ['\\', q]
    else if c == '\t' then "\\t"
    else if c == '\n' then "\\n"
    else if c == '\r' then "\\r"
    else if c < ' ' || c == '\U{7F}' then
      var code := c as int;
      ['\\', 'x', HexDigit(code / 16), HexDigit(code % 16)]
    else [c]
  }

  /** A lower-case hexadecimal digit. */
  function HexDigit(d: int): (c: char)
    requires 0 <= d < 16
    ensures '0' <= c <= '9' || 'a' <= c <= 'f'
  {
    if d < 10 then ('0' as int + d) as char else ('a' as int + d - 10) as char
  }

  /** Decimal text of an integer, as `str(int)` prints it. */
  function Decimal(n: int): string
  {
    if n < 0 then "-" + Digits(-n) else Digits(n)
  }

  function Digits(n: nat): (r: string)
    ensures r != []
    ensures forall i :: 0 <= i < |r| ==> '0' <= r[i] <= '9'
    decreases n
  {
    if n < 10 then [('0' as int + n) as char]
    else Digits(n / 10) + [('0' as int + n % 10) as char]
  }
}

=== FILE: ordering.dfy ===
/** Python's ordering of strings and its stable sort with `reverse=True`,
    as used to list stored webhooks newest first. */
module Ordering {

  /** `a < b` on Python strings: lexicographic by code point, a proper
      prefix coming first. */
  predicate Less(a: string, b: string)
  {
    if a == [] then b != []
    else if b == [] then false
    else if a[0] != b[0] then a[0] < b[0]
    else Less(a[1..], b[1..])
  }

  lemma {:induction false} LessIrreflexive(a: string)
    ensures !Less(a, a)
  {
    if a != [] {
      LessIrreflexive(a[1..]);
    }
  }

  lemma {:induction false} LessTransitive(a: string, b: string, c: string)
    requires Less(a, b) && Less(b, c)
    ensures Less(a, c)
  {
    if a != [] && b != [] && c != [] && a[0] == b[0] && b[0] == c[0] {
      LessTransitive(a[1..], b[1..], c[1..]);
    }
  }

  lemma {:induction false} LessTotal(a: string, b: string)
    ensures a == b || Less(a, b) || Less(b, a)
  {
    if a != [] && b != [] && a[0] == b[0] {
      LessTotal(a[1..], b[1..]);
      if a[1..] == b[1..] {
        assert a == [a[0]] + a[1..] && b == [b[0]] + b[1..];
      }
    }
  }

  lemma LessAsymmetric(a: string, b: string)
    requires Less(a, b)
    ensures !Less(b, a)
  {
    if Less(b, a) {
      LessTransitive(a, b, a);
      LessIrreflexive(a);
    }
  }

  /** Not-after in the descending order: `b`'s key is not greater than `a`'s. */
  predicate NotAfter<T>(key: T -> string, a: T, b: T)
  {
    !Less(key(a), key(b))
  }

  /** Newest first: no element's key is smaller than that of an element
      after it. */
  predicate SortedDesc<T>(key: T -> string, s: seq<T>)
  {
    forall i, j :: 0 <= i < j < |s| ==> NotAfter(key, s[i], s[j])
  }

  /** Places `x` in front of the first element whose key is not greater
      than its own, so that among equal keys `x` comes first. */
  function Insert<T>(key: T -> string, x: T, s: seq<T>): (r: seq<T>)
    ensures multiset(r) == multiset(s) + multiset{x}
    ensures |r| == |s| + 1
  {
    if s == [] || !Less(key(x), key(s[0])) then [x] + s
    else
      var rest := Insert(key, x, s[1..]);
      assert s == [s[0]] + s[1..];
      [s[0]] + rest
  }

  /** `sorted(s, key=key, reverse=True)`: a stable sort by descending key,
      taking the elements front to back so that equal keys keep their
      original order. */
  function SortDesc<T>(key: T -> string, s: seq<T>): (r: seq<T>)
    ensures |r| == |s|
  {
    if s == [] then [] else Insert(key, s[0], SortDesc(key, s[1..]))
  }

  /** Inserting into a descending sequence keeps it descending. */
  lemma {:induction false} InsertSorted<T>(key: T -> string, x: T, s: seq<T>)
    requires SortedDesc(key, s)
    ensures SortedDesc(key, Insert(key, x, s))
  {
    var r := Insert(key, x, s);
    if s == [] || !Less(key(x), key(s[0])) {
      forall i, j | 0 <= i < j < |r|
        ensures NotAfter(key, r[i], r[j])
      {
        if i == 0 && j > 1 {
          // x is not below s[0], and s[0] is not below s[j - 1].
          if Less(key(x), key(r[j])) {
            assert r[j] == s[j - 1];
            assert NotAfter(key, s[0], s[j - 1]);
            LessTotal(key(s[0]), key(r[j]));
            if key(s[0]) == key(r[j]) {
            } else {
              LessTransitive(key(x), key(r[j]), key(s[0]));
            }
          }
        }
      }
    } else {
      InsertSorted(key, x, s[1..]);
      var rest := Insert(key, x, s[1..]);
      assert r == [s[0]] + rest;
      forall i, j | 0 <= i < j < |r|
        ensures NotAfter(key, r[i], r[j])
      {
        if i == 0 {
          var y := r[j];
          assert y in multiset(rest);
          assert y in multiset(s[1..]) + multiset{x};
          if y == x {
            LessAsymmetric(key(x), key(s[0]));
          } else {
            assert y in s[1..];
            var k :| 0 <= k < |s[1..]| && s[1..][k] == y;
            assert s[k + 1] == y;
          }
        }
      }
    }
  }

  /** The sort returns a descending rearrangement of its input. */
  lemma {:induction false} SortDescCorrect<T>(key: T -> string, s: seq<T>)
    ensures SortedDesc(key, SortDesc(key, s))
    ensures multiset(SortDesc(key, s)) == multiset(s)
  {
    if s != [] {
      SortDescCorrect(key, s[1..]);
      InsertSorted(key, s[0], SortDesc(key, s[1..]));
      assert s == [s[0]] + s[1..];
    }
  }

  /** The elements of `s` whose key is `v`, in their order in `s`. */
  function WithKey<T>(key: T -> string, s: seq<T>, v: string): seq<T>
  {
    if s == [] then []
    else if key(s[0]) == v then [s[0]] + WithKey(key, s[1..], v)
    else WithKey(key, s[1..], v)
  }

  /** Inserting `x` puts it in front of every element with its key and
      leaves the order of the other elements with any one key alone. */
  lemma {:induction false} InsertWithKey<T>(key: T -> string, x: T, s: seq<T>, v: string)
    ensures WithKey(key, Insert(key, x, s), v)
            == if key(x) == v then [x] + WithKey(key, s, v) else WithKey(key, s, v)
  {
    var r := Insert(key, x, s);
    if s == [] || !Less(key(x), key(s[0])) {
      assert r[1..] == s;
    } else {
      InsertWithKey(key, x, s[1..], v);
      assert r[1..] == Insert(key, x, s[1..]);
      if key(s[0]) == v {
        LessIrreflexive(v);
      }
    }
  }

  /** The sort is stable: elements with equal keys come out in the order
      they went in, which decides which of them a limit keeps. */
  lemma {:induction false} SortDescStable<T>(key: T -> string, s: seq<T>, v: string)
    ensures WithKey(key, SortDesc(key, s), v) == WithKey(key, s, v)
  {
    if s != [] {
      SortDescStable(key, s[1..], v);
      InsertWithKey(key, s[0], SortDesc(key, s[1..]), v);
    }
  }

  /** Python's `s[:n]`: a negative bound counts from the end. */
  function Take<T>(s: seq<T>, n: int): (r: seq<T>)
    ensures r <= s
    ensures n >= 0 ==> |r| == if n < |s| then n else |s|
    ensures n < 0 ==> |r| == if |s| + n > 0 then |s| + n else 0
  {
    if n >= 0 then (if n < |s| then s[..n] else s)
    else if |s| + n > 0 then s[..|s| + n] else []
  }
}

=== FILE: results.dfy ===
/** Optional values and success/failure results, used wherever the source
    returns None or raises an exception. */
module Results {

  datatype Option<+T> = None | Some(value: T) {

    /** The wrapped value, or `default` when there is none. */
    function GetOr(default: T): (r: T)
      ensures Some? ==> r == value
      ensures None? ==> r == default
    {
      match this
      case Some(v) => v
      case None => default
    }
  }

  datatype Result<+R, +E> = Success(value: R) | Failure(error: E)
}

=== FILE: signature.dfy ===
/** `verify_signature` of utils.py: recompute the HMAC-SHA256 of the body
    under the shared secret, hex-encode it, and compare it with the
    signature the caller sent. */
module Signature {
  import opened Results
  import opened Text
  import Settings

  /** A SHA-256 digest. */
  type Digest = d: seq<byte> | |d| == 32 witness seq(32, _ => 0 as byte)

  /** HMAC-SHA256 of a payload keyed by the UTF-8 encoding of a secret.  The
      hash is not modelled: the model is parametric in this function. */
  type Mac = (string, seq<byte>) -> Digest

  /** The signature a sender holding `secret` attaches to `payload`. */
  function ExpectedSignature(mac: Mac, secret: string, payload: seq<byte>): (s: string)
    ensures |s| == 64 && IsAscii(s)
    ensures IsLowerHex(s)
  {
    Hex(mac(secret, payload))
  }

  /** The `TypeError` that `hmac.compare_digest` raises for a text with
      non-ASCII characters. */
  const NonAsciiMessage: string := "comparing strings with non-ASCII characters is not supported"

  /** `verify_signature(payload, signature, secret)`.  Without a secret the
      configured one is used.  The comparison accepts exactly the expected
      hex text; a signature with a non-ASCII character makes the comparison
      raise instead of answering. */
  function Verify(mac: Mac, cfg: Settings.Config, payload: seq<byte>, signature: string,
                  secret: Option<string>): (r: Result<bool, string>)
    ensures r.Failure? <==> !IsAscii(signature)
    ensures r.Failure? ==> r.error == NonAsciiMessage
    ensures r == Success(true) <==>
              signature == ExpectedSignature(mac, secret.GetOr(cfg.webhookSecret), payload)
  {
    var key := if secret.None? then cfg.webhookSecret else secret.value;
    var expected := ExpectedSignature(mac, key, payload);
    if !IsAscii(signature) then Failure(NonAsciiMessage)
    else Success(expected == signature)
  }

  /** A sender that signs with the shared secret is accepted. */
  lemma SignedPayloadVerifies(mac: Mac, cfg: Settings.Config, payload: seq<byte>, secret: string)
    ensures Verify(mac, cfg, payload, ExpectedSignature(mac, secret, payload), Some(secret)) == Success(true)
  {
  }

  /** Without an explicit secret, verification is verification under the
      configured secret. */
  lemma DefaultSecret(mac: Mac, cfg: Settings.Config, payload: seq<byte>, signature: string)
    ensures Verify(mac, cfg, payload, signature, None) == Verify(mac, cfg, payload, signature, Some(cfg.webhookSecret))
  {
  }

  /** An ASCII signature that differs from the expected one in any
      character, or in length, is answered with `false`. */
  lemma AlteredSignatureRejected(mac: Mac, cfg: Settings.Config, payload: seq<byte>, signature: string)
    requires IsAscii(signature)
    requires var expected := ExpectedSignature(mac, cfg.webhookSecret, payload);
      |signature| != |expected| || exists i :: 0 <= i < |signature| && signature[i] != expected[i]
    ensures Verify(mac, cfg, payload, signature, None) == Success(false)
  {
  }

  /** The expected signature is lower-case hex, so an ASCII signature with
      any other character (an upper-case digit, a comma) is answered with
      `false`. */
  lemma NonHexSignatureRejected(mac: Mac, cfg: Settings.Config, payload: seq<byte>, signature: string, i: int)
    requires IsAscii(signature)
    requires 0 <= i < |signature| && !('0' <= signature[i] <= '9' || 'a' <= signature[i] <= 'f')
    ensures Verify(mac, cfg, payload, signature, None) == Success(false)
  {
  }

  /** Signatures are hex texts of digests, so two secrets or payloads that
      yield different digests never accept the same signature. */
  lemma DistinctDigestsDistinctSignatures(mac: Mac, k1: string, p1: seq<byte>, k2: string, p2: seq<byte>)
    requires mac(k1, p1) != mac(k2, p2)
    ensures ExpectedSignature(mac, k1, p1) != ExpectedSignature(mac, k2, p2)
  {
    HexInjective(mac(k1, p1), mac(k2, p2));
  }
}

=== FILE: store.dfy ===
/** `save_webhook_data` and `get_all_webhooks` of utils.py: one JSON file per
    webhook in the data directory, listed newest first.  The directory is a
    map from file name to what reading that file yields. */
module Store {
  import opened Results
  import opened JsonValues
  import opened Text
  import opened Http
  import Settings
  import Ordering

  /** A file either decodes as JSON or cannot be read or decoded. */
  datatype Entry = Readable(value: Json) | Unreadable

  type Directory = map<string, Entry>

  /** The files of a directory that may not exist yet. */
  function Files(dir: Option<Directory>): Directory
  {
    if dir.Some? then dir.value else map[]
  }

  /** Why a save raises: the body is not UTF-8, or the file cannot be
      written. */
  datatype SaveFault = UndecodableBody | WriteFailed

  /** The directory after the call, and the saved path or the fault. */
  datatype SaveOutcome = SaveOutcome(dir: Option<Directory>, path: Result<string, SaveFault>)

  /** The file name: source, underscore, `%Y%m%d_%H%M%S_%f` stamp, `.json`.
      The source is not sanitised, so a `/` in it carries over. */
  function FileName(source: string, stamp: string): (name: string)
    ensures EndsWithJson(name)
    ensures InDataDir(name) <==> '/' !in source && '/' !in stamp
  {
    var name := source + "_" + stamp + ".json";
    assert name[|name| - 5..] == ".json";
    assert forall i :: 0 <= i < |source| ==> name[i] == source[i];
    assert forall i :: 0 <= i < |stamp| ==> name[|source| + 1 + i] == stamp[i];
    name
  }

  /** A name without `/` is joined onto the data directory as one of its
      own entries.  A name with `/` is a path: it reaches into a
      subdirectory, or, through `..` or a leading `/`, out of the data
      directory altogether, and the file it names is never one of the
      directory's entries. */
  predicate InDataDir(name: string)
  {
    '/' !in name
  }

  predicate EndsWithJson(name: string)
  {
    |name| >= 5 && name[|name| - 5..] == ".json"
  }

  /** `os.path.join(dir, name)`: an absolute name replaces the directory;
      otherwise the name follows the directory and one separator. */
  function JoinPath(dir: string, name: string): (path: string)
    ensures |path| >= |name| && path[|path| - |name|..] == name
    ensures name != [] && name[0] == '/' ==> path == name
    ensures (name == [] || name[0] != '/') ==>
              && dir <= path
              && |dir| <= |path| - |name| <= |dir| + 1
              && (dir != [] ==> path[|path| - |name| - 1] == '/')
  {
    if name != [] && name[0] == '/' then name
    else if dir == [] || dir[|dir| - 1] == '/' then dir + name
    else dir + "/" + name
  }

  /** The source picks where the file goes: `../x` climbs out of the data
      directory and `/tmp/x` replaces it, and neither names one of its
      entries. */
  lemma SourceChoosesLocation(cfg: Settings.Config, stamp: string)
    requires cfg.dataDir == Settings.Default.dataDir
    ensures JoinPath(cfg.dataDir, FileName("../x", stamp)) == cfg.dataDir + "/" + FileName("../x", stamp)
    ensures FileName("../x", stamp)[..3] == "../"
    ensures JoinPath(cfg.dataDir, FileName("/tmp/x", stamp)) == FileName("/tmp/x", stamp)
    ensures !InDataDir(FileName("../x", stamp)) && !InDataDir(FileName("/tmp/x", stamp))
  {
    var up := FileName("../x", stamp);
    assert up[..3] == "../" && up[2] == '/';
    assert FileName("/tmp/x", stamp)[0] == '/';
    assert cfg.dataDir[|cfg.dataDir| - 1] == 'a';
  }

  const RecordKeys: seq<string> := ["timestamp", "source", "client_ip", "headers", "raw_payload", "parsed_data"]

  /** The stored record: time, source, client address, headers (`{}` when
      there are none), body text (`null` when the body is absent or empty),
      parsed payload, and the analysis when it is truthy.  A non-empty body
      that is not UTF-8 makes the decoding raise. */
  function Record(data: Json, source: string, rawPayload: Option<Body>, headers: Option<seq<Header>>,
                  clientIp: Option<string>, aiAnalysis: Json, stamp: string): (r: Result<seq<Field>, SaveFault>)
    ensures r.Failure? <==> rawPayload.Some? && rawPayload.value.bytes != [] && rawPayload.value.text.None?
    ensures r.Success? ==>
              && Keys(r.value) == RecordKeys + (if Truthy(aiAnalysis) then ["ai_analysis"] else [])
              && r.value[0].value == JStr(stamp)
              && r.value[1].value == JStr(source)
              && r.value[2].value == (if clientIp.Some? then JStr(clientIp.value) else JNull)
              && r.value[3].value == (if headers.Some? && headers.value != [] then HeadersJson(headers.value) else EmptyObj)
              && (r.value[4].value == JNull <==> rawPayload.None? || rawPayload.value.bytes == [])
              && (rawPayload.Some? && rawPayload.value.bytes != [] ==>
                    r.value[4].value == JStr(rawPayload.value.text.value))
              && r.value[5].value == data
              && (Truthy(aiAnalysis) ==> r.value[6].value == aiAnalysis)
  {
    var raw :=
      if rawPayload.None? || rawPayload.value.bytes == [] then Success(JNull)
      else if rawPayload.value.text.None? then Failure(UndecodableBody)
      else Success(JStr(rawPayload.value.text.value));
    if raw.Failure? then Failure(UndecodableBody)
    else
      var base := [
        Field("timestamp", JStr(stamp)),
        Field("source", JStr(source)),
        Field("client_ip", if clientIp.Some? then JStr(clientIp.value) else JNull),
        Field("headers", if headers.Some? && headers.value != [] then HeadersJson(headers.value) else EmptyObj),
        Field("raw_payload", raw.value),
        Field("parsed_data", data)];
      var fields := if Truthy(aiAnalysis) then base + [Field("ai_analysis", aiAnalysis)] else base;
      assert Keys(base) == RecordKeys;
      assert Truthy(aiAnalysis) ==> Keys(fields) == Keys(base) + ["ai_analysis"];
      Success(fields)
  }

  /** `save_webhook_data(...)`.  The directory is created when missing; the
      record is built; then the file `FileName(source, fileStamp)` is
      written, replacing any file of that name, and its path is returned.
      When the name holds `/` the file lands outside the directory's own
      entries, which then stay as they were.  The two time stamps come from
      two separate clock readings. */
  function Save(cfg: Settings.Config, dir: Option<Directory>, data: Json, source: string,
                rawPayload: Option<Body>, headers: Option<seq<Header>>, clientIp: Option<string>,
                aiAnalysis: Json, fileStamp: string, recordStamp: string, writable: bool): (r: SaveOutcome)
    ensures r.dir.Some?
    ensures r.path.Failure? ==> r.dir == Some(Files(dir))
    ensures r.path.Success? <==>
              writable && Record(data, source, rawPayload, headers, clientIp, aiAnalysis, recordStamp).Success?
    ensures r.path.Success? ==>
              var name := FileName(source, fileStamp);
              var record := Record(data, source, rawPayload, headers, clientIp, aiAnalysis, recordStamp).value;
              && r.path.value == JoinPath(cfg.dataDir, name)
              && (InDataDir(name) ==>
                    && name in r.dir.value && r.dir.value[name] == Readable(JObj(record))
                    && (forall n :: n != name ==> (n in r.dir.value <==> n in Files(dir)))
                    && (forall n :: n != name && n in Files(dir) ==> r.dir.value[n] == Files(dir)[n]))
    ensures r.path.Success? && !InDataDir(FileName(source, fileStamp)) ==> r.dir == Some(Files(dir))
  {
    var existing := Files(dir);
    match Record(data, source, rawPayload, headers, clientIp, aiAnalysis, recordStamp)
    case Failure(fault) => SaveOutcome(Some(existing), Failure(fault))
    case Success(record) =>
      if !writable then SaveOutcome(Some(existing), Failure(WriteFailed))
      else
        var name := FileName(source, fileStamp);
        var written := if InDataDir(name) then existing[name := Readable(JObj(record))] else existing;
        SaveOutcome(Some(written), Success(JoinPath(cfg.dataDir, name)))
  }

  /** A save into a directory without a file of that name grows it by
      exactly one file, unless the name leads out of the directory. */
  lemma SaveAddsOneFile(cfg: Settings.Config, dir: Option<Directory>, data: Json, source: string,
                        rawPayload: Option<Body>, headers: Option<seq<Header>>, clientIp: Option<string>,
                        aiAnalysis: Json, fileStamp: string, recordStamp: string, writable: bool)
    requires FileName(source, fileStamp) !in Files(dir)
    ensures var r := Save(cfg, dir, data, source, rawPayload, headers, clientIp, aiAnalysis,
                          fileStamp, recordStamp, writable);
      r.path.Success? ==>
        |r.dir.value| == |Files(dir)| + (if InDataDir(FileName(source, fileStamp)) then 1 else 0)
  {
  }

  // ---------------------------------------------------------------------
  // get_all_webhooks
  // ---------------------------------------------------------------------

  /** A directory listing: every file name exactly once, in the order the
      operating system returns them. */
  predicate IsListing(names: seq<string>, dir: Directory)
  {
    && (forall i, j :: 0 <= i < j < |names| ==> names[i] != names[j])
    && dir.Keys == set n | n in names
  }

  /** A loaded record names a `.json` file under `filename`. */
  predicate NamesJsonFile(record: seq<Field>)
  {
    var tag := Get(record, "filename");
    tag.Some? && tag.value.JStr? && EndsWithJson(tag.value.s)
  }

  /** The records read from the listed `.json` files, in listing order,
      each with its `filename` set.  A file that cannot be read, does not
      decode, or does not hold an object is skipped. */
  function Load(dir: Directory, names: seq<string>): (r: seq<seq<Field>>)
    ensures |r| <= |names|
    ensures forall k :: 0 <= k < |r| ==> NamesJsonFile(r[k])
  {
    if names == [] then []
    else
      var rest := Load(dir, names[1..]);
      var n := names[0];
      if EndsWithJson(n) && n in dir && dir[n].Readable? && dir[n].value.JObj? then
        [Set(dir[n].value.fields, "filename", JStr(n))] + rest
      else rest
  }

  /** The sort key `x.get('timestamp', '')` when it is a string. */
  function Stamp(record: seq<Field>): Option<string>
  {
    match Get(record, "timestamp")
    case None => Some("")
    case Some(JStr(s)) => Some(s)
    case Some(_) => None
  }

  function StampKey(record: seq<Field>): string
  {
    Stamp(record).GetOr("")
  }

  /** Stands for the `TypeError` text of the failed comparison.  Python's
      text names the two types compared, and which two records the sort
      compares first is not modelled, so the text here is fixed. */
  const UnorderableMessage: string := "'<' not supported between timestamps of different types"

  /** `get_all_webhooks(limit)`.  No directory gives `[]`.  Otherwise the
      readable `.json` records are sorted by timestamp, newest first, and the
      first `limit` are returned (Python slice semantics).  Sorting two or
      more records where a timestamp is not a string raises. */
  function ListWebhooks(dir: Option<Directory>, names: seq<string>, limit: int): (r: Result<seq<seq<Field>>, string>)
    requires dir.Some? ==> IsListing(names, dir.value)
    ensures dir.None? ==> r == Success([])
    ensures r.Failure? <==>
              dir.Some? && |Load(dir.value, names)| >= 2
              && exists k :: 0 <= k < |Load(dir.value, names)| && Stamp(Load(dir.value, names)[k]).None?
    ensures r.Success? ==> Ordering.SortedDesc(StampKey, r.value)
    ensures r.Success? && limit >= 0 ==> |r.value| <= limit
    ensures r.Success? && dir.Some? ==>
              var n := |Load(dir.value, names)|;
              |r.value| == if limit >= 0 then (if limit < n then limit else n)
                           else if n + limit > 0 then n + limit else 0
    ensures r.Success? && dir.Some? ==> r.value <= Ordering.SortDesc(StampKey, Load(dir.value, names))
  {
    if dir.None? then Success([])
    else
      var records := Load(dir.value, names);
      if |records| >= 2 && exists k :: 0 <= k < |records| && Stamp(records[k]).None? then
        Failure(UnorderableMessage)
      else
        Success(Newest(records, limit))
  }

  /** `webhooks.sort(...)` followed by `webhooks[:limit]`. */
  function Newest(records: seq<seq<Field>>, limit: int): (r: seq<seq<Field>>)
    ensures Ordering.SortedDesc(StampKey, r)
    ensures r <= Ordering.SortDesc(StampKey, records)
    ensures |r| == if limit >= 0 then (if limit < |records| then limit else |records|)
                   else if |records| + limit > 0 then |records| + limit else 0
  {
    Ordering.SortDescCorrect(StampKey, records);
    Ordering.Take(Ordering.SortDesc(StampKey, records), limit)
  }

  /** Every listed record comes from a readable `.json` file of the
      directory holding an object, with the file's name added under
      `filename`. */
  lemma {:induction false} LoadedFromFiles(dir: Directory, names: seq<string>, record: seq<Field>)
    requires record in Load(dir, names)
    ensures exists n :: n in names && EndsWithJson(n) && n in dir && dir[n].Readable? && dir[n].value.JObj?
                        && record == Set(dir[n].value.fields, "filename", JStr(n))
  {
    var n := names[0];
    if EndsWithJson(n) && n in dir && dir[n].Readable? && dir[n].value.JObj?
       && record == Set(dir[n].value.fields, "filename", JStr(n)) {
    } else {
      LoadedFromFiles(dir, names[1..], record);
      var m :| m in names[1..] && EndsWithJson(m) && m in dir && dir[m].Readable? && dir[m].value.JObj?
               && record == Set(dir[m].value.fields, "filename", JStr(m));
      assert m in names;
    }
  }

  /** Every readable `.json` file holding an object is loaded. */
  lemma {:induction false} FilesLoaded(dir: Directory, names: seq<string>, n: string)
    requires n in names && EndsWithJson(n) && n in dir && dir[n].Readable? && dir[n].value.JObj?
    ensures Set(dir[n].value.fields, "filename", JStr(n)) in Load(dir, names)
  {
    if names[0] != n {
      FilesLoaded(dir, names[1..], n);
    }
  }

  /** What the listing returns is exactly what was loaded, rearranged, once
      the limit admits every record. */
  lemma ListingIsComplete(dir: Directory, names: seq<string>, limit: int)
    requires IsListing(names, dir)
    requires limit >= |names|
    requires ListWebhooks(Some(dir), names, limit).Success?
    ensures multiset(ListWebhooks(Some(dir), names, limit).value) == multiset(Load(dir, names))
  {
    var records := Load(dir, names);
    Ordering.SortDescCorrect(StampKey, records);
  }

  /** A listed record reads back the time stamp, source and parsed payload
      it was saved with, and the name of its file. */
  lemma RecordReadsBack(data: Json, source: string, rawPayload: Option<Body>, headers: Option<seq<Header>>,
                        clientIp: Option<string>, aiAnalysis: Json, stamp: string, name: string)
    requires Record(data, source, rawPayload, headers, clientIp, aiAnalysis, stamp).Success?
    ensures var listed := Set(Record(data, source, rawPayload, headers, clientIp, aiAnalysis, stamp).value,
                              "filename", JStr(name));
      && Get(listed, "filename") == Some(JStr(name))
      && Get(listed, "timestamp") == Some(JStr(stamp))
      && Get(listed, "source") == Some(JStr(source))
      && Get(listed, "parsed_data") == Some(data)
  {
    var record := Record(data, source, rawPayload, headers, clientIp, aiAnalysis, stamp).value;
    assert Keys(record)[..6] == RecordKeys;
    ListedLookups(record, name);
  }

  /** The saved record holds the time stamp, source and parsed payload it
      was given. */
  lemma RecordHolds(data: Json, source: string, rawPayload: Option<Body>, headers: Option<seq<Header>>,
                    clientIp: Option<string>, aiAnalysis: Json, stamp: string)
    requires Record(data, source, rawPayload, headers, clientIp, aiAnalysis, stamp).Success?
    ensures var record := Record(data, source, rawPayload, headers, clientIp, aiAnalysis, stamp).value;
      && Get(record, "timestamp") == Some(JStr(stamp))
      && Get(record, "source") == Some(JStr(source))
      && Get(record, "parsed_data") == Some(data)
  {
    var record := Record(data, source, rawPayload, headers, clientIp, aiAnalysis, stamp).value;
    assert Keys(record)[..6] == RecordKeys;
    RecordLookups(record);
  }

  /** `after` differs from `before` in file names by at most `name`, and
      the file `name` holds a record with the given payload and source. */
  ghost predicate HoldsSaved(after: Directory, before: Directory, name: string, data: Json, source: string)
  {
    && name in after && after[name].Readable? && after[name].value.JObj?
    && Get(after[name].value.fields, "parsed_data") == Some(data)
    && Get(after[name].value.fields, "source") == Some(JStr(source))
    && (forall n :: n != name ==> (n in after <==> n in before))
  }

  /** After a successful save under a name in the data directory the named
      file holds the payload and the source, and no other file appeared or
      disappeared; under a name with `/` no file of the directory changed. */
  lemma SavedFileHolds(cfg: Settings.Config, dir: Option<Directory>, data: Json, source: string,
                       rawPayload: Option<Body>, headers: Option<seq<Header>>, clientIp: Option<string>,
                       aiAnalysis: Json, fileStamp: string, recordStamp: string, writable: bool)
    requires Save(cfg, dir, data, source, rawPayload, headers, clientIp, aiAnalysis,
                  fileStamp, recordStamp, writable).path.Success?
    ensures var after := Save(cfg, dir, data, source, rawPayload, headers, clientIp, aiAnalysis,
                              fileStamp, recordStamp, writable).dir.value;
      var name := FileName(source, fileStamp);
      && (InDataDir(name) ==> HoldsSaved(after, Files(dir), name, data, source))
      && (!InDataDir(name) ==> after == Files(dir))
  {
    RecordHolds(data, source, rawPayload, headers, clientIp, aiAnalysis, recordStamp);
  }

  lemma ListedLookups(record: seq<Field>, name: string)
    requires |record| >= 6
    requires record[0].key == "timestamp" && record[1].key == "source" && record[2].key == "client_ip"
    requires record[3].key == "headers" && record[4].key == "raw_payload" && record[5].key == "parsed_data"
    ensures var listed := Set(record, "filename", JStr(name));
      && Get(listed, "filename") == Some(JStr(name))
      && Get(listed, "timestamp") == Some(record[0].value)
      && Get(listed, "source") == Some(record[1].value)
      && Get(listed, "parsed_data") == Some(record[5].value)
  {
    RecordLookups(record);
    var listed := Set(record, "filename", JStr(name));
    assert |"filename"| == 8;
    assert Get(listed, "timestamp") == Get(record, "timestamp");
    assert Get(listed, "source") == Get(record, "source");
    assert Get(listed, "parsed_data") == Get(record, "parsed_data");
  }

  lemma RecordKeysDiffer()
    ensures "timestamp" != "parsed_data" && "source" != "parsed_data" && "client_ip" != "parsed_data"
    ensures "headers" != "parsed_data" && "raw_payload" != "parsed_data"
  {
    assert "raw_payload"[0] != "parsed_data"[0];
  }

  lemma RecordLookups(record: seq<Field>)
    requires |record| >= 6
    requires record[0].key == "timestamp" && record[1].key == "source" && record[2].key == "client_ip"
    requires record[3].key == "headers" && record[4].key == "raw_payload" && record[5].key == "parsed_data"
    ensures Get(record, "timestamp") == Some(record[0].value)
    ensures Get(record, "source") == Some(record[1].value)
    ensures Get(record, "parsed_data") == Some(record[5].value)
  {
    SourceLookup(record);
    PayloadLookup(record);
  }

  lemma SourceLookup(record: seq<Field>)
    requires |record| >= 2 && record[0].key == "timestamp" && record[1].key == "source"
    ensures Get(record, "source") == Some(record[1].value)
  {
    assert |record[0].key| == 9;
    GetFirst(record, "source", 1);
  }

  lemma PayloadLookup(record: seq<Field>)
    requires |record| >= 6
    requires record[0].key == "timestamp" && record[1].key == "source" && record[2].key == "client_ip"
    requires record[3].key == "headers" && record[4].key == "raw_payload" && record[5].key == "parsed_data"
    ensures Get(record, "parsed_data") == Some(record[5].value)
  {
    RecordKeysDiffer();
    forall j | 0 <= j < 5 ensures record[j].key != "parsed_data" {
      if j == 0 {} else if j == 1 {} else if j == 2 {} else if j == 3 {} else {}
    }
    GetFirst(record, "parsed_data", 5);
  }

  /** Saving under a name in the data directory and then listing with a
      limit that admits every file returns the saved record, tagged with its
      file name.  Saving under a name with `/` leaves the listing as it was
      before the save. */
  lemma SavedRecordIsListed(cfg: Settings.Config, dir: Option<Directory>, data: Json, source: string,
                            rawPayload: Option<Body>, headers: Option<seq<Header>>, clientIp: Option<string>,
                            aiAnalysis: Json, fileStamp: string, recordStamp: string,
                            names: seq<string>, limit: int)
    requires Save(cfg, dir, data, source, rawPayload, headers, clientIp, aiAnalysis,
                  fileStamp, recordStamp, true).path.Success?
    requires IsListing(names, Save(cfg, dir, data, source, rawPayload, headers, clientIp, aiAnalysis,
                                   fileStamp, recordStamp, true).dir.value)
    requires limit >= |names|
    requires ListWebhooks(Save(cfg, dir, data, source, rawPayload, headers, clientIp, aiAnalysis,
                               fileStamp, recordStamp, true).dir, names, limit).Success?
    ensures InDataDir(FileName(source, fileStamp)) ==>
              Set(Record(data, source, rawPayload, headers, clientIp, aiAnalysis, recordStamp).value,
                  "filename", JStr(FileName(source, fileStamp)))
              in ListWebhooks(Save(cfg, dir, data, source, rawPayload, headers, clientIp, aiAnalysis,
                                   fileStamp, recordStamp, true).dir, names, limit).value
    ensures !InDataDir(FileName(source, fileStamp)) ==>
              ListWebhooks(Save(cfg, dir, data, source, rawPayload, headers, clientIp, aiAnalysis,
                                fileStamp, recordStamp, true).dir, names, limit)
              == ListWebhooks(Some(Files(dir)), names, limit)
  {
    var name := FileName(source, fileStamp);
    if InDataDir(name) {
      var saved := Save(cfg, dir, data, source, rawPayload, headers, clientIp, aiAnalysis,
                        fileStamp, recordStamp, true).dir.value;
      assert name in names;
      FilesLoaded(saved, names, name);
      ListingIsComplete(saved, names, limit);
      var listed := Set(Record(data, source, rawPayload, headers, clientIp, aiAnalysis, recordStamp).value,
                        "filename", JStr(name));
      assert listed in multiset(Load(saved, names));
    }
  }
}

=== FILE: text.dfy ===
/** String and byte helpers with Python's semantics: `lower`, `in` on
    strings, `strip`, `split(',')[0]`, and hex encoding of digests. */
module Text {
  import JsonValues

  newtype byte = x: int | 0 <= x < 256

  /** `str.lower()` on ASCII letters; other characters are kept. */
  function LowerChar(c: char): (r: char)
    ensures 'A' <= c <= 'Z' ==> 'a' <= r <= 'z' && r as int == c as int + 32
    ensures !('A' <= c <= 'Z') ==> r == c
  {
    if 'A' <= c <= 'Z' then (c as int + 32) as char else c
  }

  /** `str.upper()` on ASCII letters; other characters are kept. */
  function UpperChar(c: char): (r: char)
    ensures 'a' <= c <= 'z' ==> 'A' <= r <= 'Z' && r as int == c as int - 32
    ensures !('a' <= c <= 'z') ==> r == c
  {
    if 'a' <= c <= 'z' then (c as int - 32) as char else c
  }

  predicate IsAsciiLetter(c: char)
  {
    'a' <= c <= 'z' || 'A' <= c <= 'Z'
  }

  function Lower(s: string): (r: string)
    ensures |r| == |s|
    ensures forall i :: 0 <= i < |s| ==> r[i] == LowerChar(s[i])
  {
    seq(|s|, i requires 0 <= i < |s| => LowerChar(s[i]))
  }

  /** Lower-casing leaves a text without capitals unchanged. */
  lemma LowerOfLower(s: string)
    requires forall i :: 0 <= i < |s| ==> !('A' <= s[i] <= 'Z')
    ensures Lower(s) == s
  {
  }

  /** `sub in s` for strings: `sub` occurs contiguously somewhere in `s`. */
  predicate IsSubstring(sub: string, s: string)
    decreases |s|
  {
    sub <= s || (s != [] && IsSubstring(sub, s[1..]))
  }

  /** An occurrence at a known offset is found. */
  lemma {:induction false} SubstringAt(sub: string, pre: string, post: string)
    ensures IsSubstring(sub, pre + sub + post)
    decreases |pre|
  {
    if pre == [] {
      assert pre + sub + post == sub + post;
    } else {
      assert (pre + sub + post)[1..] == pre[1..] + sub + post;
      SubstringAt(sub, pre[1..], post);
    }
  }

  /** An occurrence splits the text around it. */
  lemma {:induction false} SubstringParts(sub: string, s: string) returns (pre: string, post: string)
    requires IsSubstring(sub, s)
    ensures s == pre + sub + post
    decreases |s|
  {
    if sub <= s {
      pre, post := [], s[|sub|..];
    } else {
      var a, b := SubstringParts(sub, s[1..]);
      pre, post := [s[0]] + a, b;
    }
  }

  lemma SubstringTransitive(a: string, b: string, c: string)
    requires IsSubstring(a, b) && IsSubstring(b, c)
    ensures IsSubstring(a, c)
  {
    var p1, q1 := SubstringParts(a, b);
    var p2, q2 := SubstringParts(b, c);
    assert c == (p2 + p1) + a + (q1 + q2);
    SubstringAt(a, p2 + p1, q1 + q2);
  }

  /** Lower-casing keeps an occurrence in place. */
  lemma LowerSubstring(sub: string, s: string)
    requires IsSubstring(sub, s)
    ensures IsSubstring(Lower(sub), Lower(s))
  {
    var pre, post := SubstringParts(sub, s);
    assert Lower(s) == Lower(pre) + Lower(sub) + Lower(post);
    SubstringAt(Lower(sub), Lower(pre), Lower(post));
  }

  /** A text lacking one of the characters of `sub` does not contain `sub`. */
  lemma {:induction false} MissingChar(sub: string, s: string, c: char)
    requires c in sub && c !in s
    ensures !IsSubstring(sub, s)
    decreases |s|
  {
    if s != [] {
      MissingChar(sub, s[1..], c);
    }
  }

  /** Whitespace as `str.isspace()` sees it, for the Latin-1 range in which
      HTTP header values are decoded. */
  predicate IsSpace(c: char)
  {
    c == ' ' || '\t' <= c <= '\r' || '\U{1C}' <= c <= '\U{1F}' || c == '\U{85}' || c == '\U{A0}'
  }

  /** The end of the run of whitespace that starts at `i`. */
  function SpaceRunEnd(s: string, i: nat): (n: nat)
    requires i <= |s|
    ensures i <= n <= |s|
    ensures forall k :: i <= k < n ==> IsSpace(s[k])
    ensures n == |s| || !IsSpace(s[n])
    decreases |s| - i
  {
    if i < |s| && IsSpace(s[i]) then SpaceRunEnd(s, i + 1) else i
  }

  /** The start of the run of whitespace that ends at `j`, not reaching
      below `lo`. */
  function SpaceRunStart(s: string, lo: nat, j: nat): (n: nat)
    requires lo <= j <= |s|
    ensures lo <= n <= j
    ensures forall k :: n <= k < j ==> IsSpace(s[k])
    ensures n == lo || !IsSpace(s[n - 1])
  {
    if lo < j && IsSpace(s[j - 1]) then SpaceRunStart(s, lo, j - 1) else j
  }

  /** Where the text `Strip` keeps begins. */
  function LeadingSpace(s: string): (n: nat)
    ensures n <= |s|
  {
    SpaceRunEnd(s, 0)
  }

  /** Where the text `Strip` keeps ends. */
  function StripEnd(s: string): (n: nat)
    ensures LeadingSpace(s) <= n <= |s|
  {
    SpaceRunStart(s, LeadingSpace(s), |s|)
  }

  /** `str.strip()`: what is left after dropping only whitespace from both
      ends; it neither starts nor ends with whitespace. */
  function Strip(s: string): (r: string)
    ensures |r| == StripEnd(s) - LeadingSpace(s)
    ensures forall k :: 0 <= k < |r| ==> r[k] == s[LeadingSpace(s) + k]
    ensures forall k :: 0 <= k < LeadingSpace(s) ==> IsSpace(s[k])
    ensures forall k :: StripEnd(s) <= k < |s| ==> IsSpace(s[k])
    ensures r == [] || (!IsSpace(r[0]) && !IsSpace(r[|r| - 1]))
  {
    s[LeadingSpace(s)..StripEnd(s)]
  }

  /** Stripping twice strips nothing more. */
  lemma StripIdempotent(s: string)
    ensures Strip(Strip(s)) == Strip(s)
  {
    var r := Strip(s);
    assert LeadingSpace(r) == 0;
    assert StripEnd(r) == |r|;
  }

  /** The index of the first comma at or after `i`, or the length. */
  function CommaIndex(s: string, i: nat): (n: nat)
    requires i <= |s|
    ensures i <= n <= |s|
    ensures forall k :: i <= k < n ==> s[k] != ','
    ensures n == |s| || s[n] == ','
    decreases |s| - i
  {
    if i < |s| && s[i] != ',' then CommaIndex(s, i + 1) else i
  }

  /** `s.split(',')[0]`: the text before the first comma. */
  function FirstField(s: string): (r: string)
    ensures r <= s
    ensures ',' !in r
    ensures r == s || s[|r|] == ','
  {
    s[..CommaIndex(s, 0)]
  }

  predicate IsAscii(s: string)
  {
    forall i :: 0 <= i < |s| ==> s[i] < '\U{80}'
  }

  /** Text made of lower-case hexadecimal digits only. */
  predicate IsLowerHex(s: string)
  {
    forall i :: 0 <= i < |s| ==> '0' <= s[i] <= '9' || 'a' <= s[i] <= 'f'
  }

  /** `bytes.hex()` / `hexdigest()`: two lower-case hex digits per byte. */
  function Hex(d: seq<byte>): (r: string)
    ensures |r| == 2 * |d|
    ensures IsAscii(r)
    ensures IsLowerHex(r)
  {
    if d == [] then ""
    else [JsonValues.HexDigit(d[0] as int / 16), JsonValues.HexDigit(d[0] as int % 16)] + Hex(d[1..])
  }

  /** Value of a hex digit; `None` for any other character. */
  function DigitValue(c: char): (r: int)
    ensures -1 <= r < 16
  {
    if '0' <= c <= '9' then c as int - '0' as int
    else if 'a' <= c <= 'f' then c as int - 'a' as int + 10
    else -1
  }

  /** Decoding of a hex string back to bytes (`bytes.fromhex` on lower-case
      text without separators); the partner of `Hex`. */
  function UnHex(s: string): (r: seq<byte>)
  {
    if |s| < 2 then []
    else
      var hi := DigitValue(s[0]);
      var lo := DigitValue(s[1]);
      if hi < 0 || lo < 0 then [] else [(hi * 16 + lo) as byte] + UnHex(s[2..])
  }

  /** Decoding the hex text of a digest gives the digest back, so `Hex` is
      injective: different digests never share a hex text. */
  lemma {:induction false} UnHexHex(d: seq<byte>)
    ensures UnHex(Hex(d)) == d
  {
    if d != [] {
      var h := Hex(d);
      var b := d[0] as int;
      assert DigitValue(JsonValues.HexDigit(b / 16)) == b / 16;
      assert DigitValue(JsonValues.HexDigit(b % 16)) == b % 16;
      assert h[2..] == Hex(d[1..]);
      UnHexHex(d[1..]);
    }
  }

  lemma HexInjective(d1: seq<byte>, d2: seq<byte>)
    ensures Hex(d1) == Hex(d2) <==> d1 == d2
  {
    if Hex(d1) == Hex(d2) {
      UnHexHex(d1);
      UnHexHex(d2);
    }
  }
}
